=== FILE: README.md ===
# hieropt configuration trees, in Dafny

This project models the core of `hieropt`, a hierarchical configuration
library. A configuration is a tree. Its inner nodes are groups and its leaves
are typed values (`Value` holds text, `Bool` and `Int` hold numbers and
truth values). A leaf that has no stored value falls back to a default. That
default is either a literal or the `parent` sentinel, which hands the
question to the parent node. The tree can be written to a line-oriented text
file and read back from one.

The model is purely functional:

- `Tree.Node` is an immutable datatype. A parent's back-pointer is replaced
  by `Values.Context`, the result of calling the parent, which the walk from
  the root passes down to each child.
- Every Python exception becomes an `Err` of `Base.Error`.
- `writefp` becomes the list of lines it prints.
- `readfp` becomes a fold over the lines of a file. It returns the final tree
  and the exception that stopped it, if any. The tree keeps the effects of
  earlier lines.

Modules:

- `Base`: `Option`, `Result`, the error values.
- `Text`: Python's `strip`, `split`, `lower`, and line iteration.
- `Scalars`: the kinds and their `fromString`/`str`.
- `Tree`: `register`, `get`, full names, `__iter__`.
- `Values`: effective values, `parent` defaults, `isSet`/`isDefault`/`reset`/`set`.
- `Wrap`: comment wrapping.
- `Format`: `writefp` and `readfp`.
- `Reading`: what one line does to a tree.
- `RoundTrip`: the write-then-read fixed point.

The headline theorem is `RoundTrip.WriteThenRead`. It applies to a
well-formed tree, meaning:

- names are non-empty and free of whitespace, `.`, `:` and `=`;
- the root's name does not start with `#`;
- sibling names are distinct;
- stored values have the leaf's kind and print as one trimmed line;
- literal defaults print on one line;
- writing the tree succeeds (`WriteFp(t, annotate)` is `Ok`), that is,
  every leaf's effective value resolves.

For such a tree, reading back the file `writefp` produced raises nothing and
gives back exactly the same tree. Writing again therefore produces the same
text, and every leaf keeps its `isSet and isDefault` status, which is what
`assert_write_then_read_equivalence` in the tests checks.

## Model

| member | source | states |
|---|---|---|
| Scalars.ParseInt | hieropt/__init__.py:329-333 | `int(s, base)` accepts exactly an optional sign followed by at least one digit of the base; the result is the digits' value, negated after a `-`; a failure is a conversion error naming the text |
| Scalars.IntFromStringCases | hieropt/__init__.py:326-333 | text after `0x` is accepted exactly when, after one optional sign, it is a non-empty run of hex digits, and its value is that run's value with the sign applied; text not starting with `0` is treated the same way in base 10; text starting with `0` (but not `0x`) is accepted exactly when it is all octal digits and gives their value; a negative result needs a `-` up front or right after `0x` |
| Scalars.IntSignedExamples | hieropt/__init__.py:326-333 | `+5` reads as 5, `0x-1` as -1 and `-012` as -12 (a signed leading-zero number is decimal), while `0x` and `0xZZ` are rejected |
| Scalars.IntFromStringExamples | hieropt/__init__.py:326-333 | `0x` parses hex on the rest (`0xFF` is 255), a leading `0` parses the whole token as octal (`0777` is 511, `08` fails), and anything else is decimal (`-1`, `1`, `0`) |
| Scalars.IntRoundTrip | hieropt/__init__.py:326-333 | `Int.fromString(str(i)) == i` for every integer, including the prefix dispatch on `0` and on negative numbers |
| Scalars.BoolFromString | hieropt/__init__.py:316-323 | accepts exactly the lower-cased keywords: true for `true/on/1/yes`, false for `false/off/0/no`, a conversion error otherwise |
| Scalars.BoolExamples | hieropt/test/test_hieropt.py:122-127 | mixed-case keywords such as `On`, `YES`, `Off` and `NO` convert, and other words do not |
| Scalars.BoolCaseInsensitive | hieropt/__init__.py:316-323 | the conversion depends only on the lower-cased text |
| Scalars.FromString | hieropt/__init__.py:278-279 | the result has the leaf's kind, free text is taken as it is, bool text is accepted exactly when `boolFromString` accepts it and gives that bool, int text is accepted exactly when `intFromString` accepts it and gives that int, and a failure names the rejected text |
| Scalars.DecimalDigits | hieropt/__init__.py:281-282 | `str` of a natural number is non-empty decimal digits that denote the number, with no leading zero, and zero is exactly `0` |
| Scalars.Show | hieropt/__init__.py:281-285 | `str` of a bool is `True` or `False`, of text is the text, and of an int is a `-` exactly for negative numbers followed by decimal digits denoting its magnitude, with no leading zero: `0` is written `0` and is the only int written that way |
| Scalars.ShowRoundTrip | hieropt/__init__.py:275-285 | `fromString(toString(v)) == v` for every value of every kind |
| Scalars.ShowNumberIsTrimmed | hieropt/__init__.py:281-282 | `str` of a bool or an int is a single line without surrounding whitespace |
| Text.Strip | hieropt/__init__.py:166 | `strip()` is a contiguous piece of the text with only whitespace before and after it and none at its own ends; it is empty only when the text is all whitespace |
| Text.StripPadded | hieropt/__init__.py:166 | whitespace added before and after a text does not change what `strip()` gives |
| Text.SplitOn | hieropt/__init__.py:174 | `split('.')` gives at least one piece, no piece holds the separator, and joining the pieces gives the text back |
| Text.SplitJoin | hieropt/__init__.py:174 | splitting the join of dot-free pieces gives back the pieces |
| Text.Lower | hieropt/__init__.py:318 | `lower()` keeps the length, leaves no upper-case ASCII letter, maps each such letter to its lower-case form and keeps every other character |
| Text.LowerIdempotent | hieropt/__init__.py:318-320 | lowering twice is lowering once, so a keyword test on lowered text is stable |
| Text.Lines | hieropt/__init__.py:164 | iterating over a file yields no line exactly for empty text, and no line holds a newline |
| Text.LinesJoin | hieropt/__init__.py:164 | the lines of a non-empty text joined with newlines give the text back, up to one final newline |
| Text.LinesUnlines | hieropt/__init__.py:164 | iterating over the lines of text written from newline-free lines yields those lines |
| Tree.NewGroup | hieropt/__init__.py:90-96 | a name starting with `_` is rejected with `ForbiddenName`; otherwise the result is an empty group that expects no value and keeps the given comment and child factory |
| Tree.NewValue | hieropt/__init__.py:245-248 | the same name check; otherwise the result is a childless leaf with nothing stored that keeps the given default, kind, comment and factory |
| Tree.Construct | hieropt/__init__.py:107 | a factory builds a group or a leaf of its kind under the requested name, unless that name is forbidden; the new node has no comment, and a new leaf has no default |
| Tree.Register | hieropt/__init__.py:126-134 | afterwards `get(c.name)` yields `c`; a same-named child is replaced in place, every other child and the order are kept, and distinct names stay distinct |
| Tree.RegisterReplaces | hieropt/__init__.py:132 | assigning to an existing key keeps its position, replaces the child there and keeps every other child |
| Tree.RegisterAppends | hieropt/__init__.py:132 | assigning to a new key appends the child at the end and keeps every other child |
| Tree.Child | hieropt/__init__.py:103-104 | a child is found exactly when its name is among the children's names, and what is found is a child of that name |
| Tree.RegisterPresent | hieropt/__init__.py:126-134 | registering a child that is already present changes nothing |
| Tree.Get | hieropt/__init__.py:98-111 | an existing child is returned and nothing changes; a missing name fails with `NoSuchChild` without a factory and with `ForbiddenName` when the factory rejects it; otherwise the child the factory builds for that name is appended and returned, and every other child is unchanged |
| Tree.GetIdempotent | hieropt/__init__.py:98-111 | a repeated `get` returns the same child and changes nothing |
| Tree.ChildOfMember | hieropt/__init__.py:104 | with distinct names, every child is found under its own name |
| Tree.Iterate | hieropt/__init__.py:214-220 | there is one entry per node of the subtree, and the first entry is the node itself under its own name |
| Tree.IterateCoversTree | hieropt/__init__.py:214-220 | every node reachable by a path appears, under the dotted join of the names along that path |
| Tree.IterateAllAppend | hieropt/__init__.py:218-220 | listing two runs of siblings lists the first run's subtrees, then the second's |
| Tree.IterateAllBlocks | hieropt/__init__.py:214-220 | the subtree of each child is one block of entries, after the blocks of all earlier children and before those of all later ones |
| Tree.IterateSound | hieropt/__init__.py:214-220 | every entry is a node reachable by a path whose dotted join is the entry's name |
| Tree.DottedSplit | hieropt/__init__.py:136-144 | a full name splits at its dots into the parent's parts followed by the child's name, and a parent with the empty name adds no part |
| Tree.Lookup | hieropt/__init__.py:177-182 | following no name stays at the node; a successful walk starts at an existing child and ends at a node named by the last name |
| Tree.PathNameStep | hieropt/__init__.py:136-144 | a full name is the parent's full name, a dot, and the child's name |
| Tree.IterateExample | hieropt/test/test_hieropt.py:174-180 | flattening `simple` with leaves `int` and `bool` yields `simple`, `simple.int`, `simple.bool` in that order |
| Values.DefaultValue | hieropt/__init__.py:250-257 | the `default` property is nothing without a default, the literal for a literal, and the parent's own result for `parent`; only `parent` can fail, and on a root it fails with `NoParent` |
| Values.Call | hieropt/__init__.py:259-263 | a leaf yields its stored value when one is stored and its default otherwise; a group fails with `GroupExpectsNoValue` naming its full path; only groups and unset `parent`-defaulted leaves fail |
| Values.IsDefaultMeansDefault | hieropt/__init__.py:309-310 | when `isDefault()` holds the leaf yields its default; when it fails the leaf yields its stored value and `isSet()` holds |
| Values.IsSet | hieropt/__init__.py:306-307 | `isSet()` holds exactly when the effective value exists, and it fails exactly when resolving the effective value fails |
| Values.Reset | hieropt/__init__.py:312-313 | after `reset()`, `isDefault()` holds, the default, kind, comment and child factory are untouched, and the effective value is the default |
| Values.Set | hieropt/__init__.py:272-273 | after `set(v)`, `isDefault()` fails, the effective value is `v`, `isSet()` holds, and a `reset()` undoes it |
| Values.SetFromString | hieropt/__init__.py:275-276 | the call fails exactly when conversion fails, and otherwise stores exactly the converted value, which has the leaf's kind |
| Values.SetFromShow | hieropt/__init__.py:275-285 | storing the text of a value of the leaf's kind stores that value |
| Values.PredicatesAcrossReset | hieropt/test/test_hieropt.py:276-286 | a leaf with a literal default is set before and after a `set` and a `reset` |
| Values.SetAt | hieropt/__init__.py:272-273 | setting a leaf below a node keeps the node's name and its children's names |
| Values.SetAtStored | hieropt/__init__.py:272-273 | setting a leaf to the value it already stores changes nothing |
| Values.ChildOfSetAt | hieropt/__init__.py:272-273 | setting below a node changes only the child on the path |
| Values.SetThenCall | hieropt/__init__.py:259-263 | after `set(v)` anywhere in the tree, that node's effective value is `v` |
| Values.SetLeavesOthers | hieropt/__init__.py:259-263 | setting a leaf leaves the effective value of every node that is not at or below it unchanged |
| Values.SetChildKeepsParent | hieropt/__init__.py:250-263 | setting a child never changes its parent's effective value |
| Values.DelegationChain | hieropt/__init__.py:250-263 | through a chain of unset leaves defaulting to `parent`, the effective value is the one at the top of the chain |
| Values.ParentDefaultExample | hieropt/test/test_hieropt.py:260-274 | with `config.x` defaulting to 1 and `config.x.y` defaulting to `parent`, setting `x` to 2 makes `y` yield 2, and setting `y` to 3 leaves `x` at 2 |
| Values.GroupCallAsWritten | hieropt/__init__.py:121-124 | as written, calling a group raises something other than `GroupExpectsNoValue` |
| Values.GroupCallFinding | hieropt/__init__.py:121-124 | calling a group fails with `GroupExpectsNoValue` naming its full path, which differs from the as-written result; an unset `parent`-defaulted leaf under a group fails the same way |
| Wrap.Words | hieropt/__init__.py:63-64 | `split()` yields non-empty words without whitespace |
| Wrap.WordsNone | hieropt/__init__.py:63-64 | `split()` yields no word exactly when the text is all whitespace |
| Wrap.WordsLeadingSpace | hieropt/__init__.py:63-64 | whitespace in front of a text adds no word |
| Wrap.WordsCons | hieropt/__init__.py:63-64 | a word followed by whitespace is the first word and the rest's words follow it, so the words are the maximal non-space runs in order |
| Wrap.Fill | hieropt/__init__.py:63-64 | each wrapped line is a run of consecutive words joined by single spaces, there are lines exactly when there are words, and no line exceeds the width when no word does |
| Wrap.FillCovers | hieropt/__init__.py:63-64 | filling loses and adds no word: the lines joined by spaces are the words joined by spaces |
| Wrap.WrapCommentCovers | hieropt/__init__.py:63-64 | `wrap(comment)` is empty exactly for an all-whitespace comment, and its lines joined by spaces are `' '.join(comment.split())` |
| Wrap.WrapCommentLines | hieropt/__init__.py:63-64 | wrapped comment lines hold no newline and fit in 70 columns when every word does |
| Format.CommentLines | hieropt/__init__.py:66-68 | each written comment line starts with `#`, holds no newline, and is at most 72 characters when every word fits |
| Format.DefaultsCommentedOut | hieropt/__init__.py:287-301 | when nothing is stored, every written line is blank or starts with `#` |
| Format.StoredNotCommentedOut | hieropt/__init__.py:287-301 | with every leaf set and, when annotating, no comment anywhere, no written line starts with `#`; without annotation no line is blank either |
| Format.ValueLineCommented | hieropt/__init__.py:291-297 | a leaf's `name: value` line is skipped when read exactly when nothing is stored |
| Format.GroupHeadSkipped | hieropt/__init__.py:153-155 | a group writes no `name: value` line: everything it writes before its children is skipped when read |
| Format.ValueLine | hieropt/__init__.py:291-297 | the value line starts with `# ` when nothing is stored and with the full name and `: ` otherwise, and ends with the printed value or `(no default)` |
| Format.Head | hieropt/__init__.py:287-299 | a node's own lines fail exactly when its value cannot be resolved; a leaf's include its value line; without annotation a group writes nothing and a leaf only its value line; with annotation a leaf ends with a blank line |
| Format.WriteNode | hieropt/__init__.py:146-158 | a node's own lines come first and a failure there fails the whole write; without annotation exactly one line is written per leaf |
| Format.WriteFp | hieropt/__init__.py:146-158 | writing the root succeeds exactly when writing its lines does, and the file's lines read back as those lines when none holds a newline |
| Format.WriteAllFrom | hieropt/__init__.py:157-158 | every line written for a list of siblings comes from one of them |
| Format.WriteAllAppend | hieropt/__init__.py:157-158 | writing two runs of siblings writes the first run's lines, then the second's, and fails exactly when either run fails |
| Format.WriteAllBlocks | hieropt/__init__.py:157-158 | child `i`'s lines form one block, after those of every earlier sibling and before those of every later one; the write fails exactly when one of the three parts fails |
| Format.WritePreOrder | hieropt/__init__.py:146-158 | `writefp` is pre-order: a node's own lines, then each child's block in insertion order; it fails exactly when the node's own lines or any child's block fails, so a failing child fails its parent |
| Format.ParseLine | hieropt/__init__.py:166-173 | a line is skipped exactly when it strips to nothing or to text starting with `#`; it lacks a name exactly when the stripped text is otherwise free of `:` and `=`; a parsed name holds no separator and the parsed value is stripped |
| Format.AssignmentCore | hieropt/__init__.py:169-173 | an unindented `name`, optional whitespace, `:` or `=`, optional whitespace, `value` splits into exactly that name and value |
| Format.ParseAssignment | hieropt/__init__.py:160-173 | a line of optional whitespace, `name`, optional whitespace, `:` or `=`, optional whitespace, `value` and optional whitespace parses as assigning `value` to `name`, for every name without separators or surrounding whitespace that does not start with `#`, inner whitespace included |
| Format.IndentedComment | hieropt/__init__.py:162-168 | a line whose first non-blank character is `#` is skipped, however far it is indented |
| Format.MissingNameLine | hieropt/__init__.py:169-172 | a line that is neither blank nor a comment and holds no `:` or `=` raises `MissingName` with its own line number and changes nothing |
| Format.Assign | hieropt/__init__.py:177-185 | the walk keeps the root's name, a successful assignment ends at a leaf, and only factory and conversion errors propagate |
| Format.ReadAssignment | hieropt/__init__.py:174-185 | the root keeps its name, and syntax errors carry the line's number |
| Format.Step | hieropt/__init__.py:164-185 | the root keeps its name, and syntax errors carry the line's number |
| Format.ReadLines | hieropt/__init__.py:164-185 | the root keeps its name across the whole file |
| Format.ReadLinesTagged | hieropt/__init__.py:163-172 | a syntax error raised while reading carries the number of one of the lines read |
| Format.ReadFp | hieropt/__init__.py:160-185 | the root keeps its name, an empty file changes nothing, and a syntax error carries a line number between 1 and the number of lines |
| Format.ReadLinesAppend | hieropt/__init__.py:164-185 | reading `pre + post` reads `pre`; unless that raised, it then reads `post` from the tree `pre` left, so there is no rollback |
| Format.ReadStopsAtFirstError | hieropt/__init__.py:164-185 | an exception is what the failing line, numbered from 1, raised on the tree that the earlier lines left |
| Format.ReadUnchanging | hieropt/__init__.py:164-168 | lines that each leave the tree as it is leave it as it is together |
| Format.CommentsOnly | hieropt/test/test_hieropt.py:301-333 | a file of blank and comment lines, such as an empty file or a `#!` line, changes nothing |
| Reading.AssignExisting | hieropt/__init__.py:177-185 | walking to an existing leaf stores exactly what `set(fromString(text))` stores there; a failed conversion changes nothing |
| Reading.AssignGroup | hieropt/__init__.py:183-184 | walking to an existing group changes nothing and reports it |
| Reading.AssignMissing | hieropt/__init__.py:178-182 | walking into a missing child of a group without a factory changes nothing and reports it |
| Reading.ReadNamed | hieropt/__init__.py:174-185 | a line naming an existing leaf sets it to the converted text, or raises the untagged conversion error; naming a group raises `GroupExpectsNoValue` with the line number |
| Reading.ReadForeignRoot | hieropt/__init__.py:175-176 | a first segment other than the root's name raises `UnregisteredName` with the line number and changes nothing |
| Reading.ReadUnregistered | hieropt/__init__.py:178-182 | an unresolvable segment raises `UnregisteredName` with the line number and changes nothing |
| Reading.AssignCreates | hieropt/__init__.py:177-185 | walking to a group with a leaf factory and into a missing child creates the child the factory builds, stores the converted text in it, appends it, and leaves the group's other children alone |
| Reading.ReadCreates | hieropt/test/test_hieropt.py:251-257 | a line naming a missing child of any group with a leaf factory, at any depth, creates and appends that child, stores the converted text in it, and leaves the group's other children alone |
| Reading.SplitPathName | hieropt/__init__.py:174 | splitting a written full name on dots gives the names along the path |
| RoundTrip.CallNoNewline | hieropt/__init__.py:250-263 | the effective value of a well-formed leaf prints on one line whenever the parent's does |
| RoundTrip.SkippedHarmless | hieropt/__init__.py:166-168 | a blank or comment line leaves any tree as it is, whatever its line number |
| RoundTrip.StoredLineParses | hieropt/__init__.py:170-173 | the `name: value` line written for a set leaf parses back as assigning exactly that text to exactly that name |
| RoundTrip.StoredLineHarmless | hieropt/__init__.py:291-297 | reading back the line written for a set leaf stores the same value again and changes nothing |
| RoundTrip.HeadHarmless | hieropt/__init__.py:287-299 | every line a well-formed node writes before its children reads back as a no-op |
| RoundTrip.ChildPath | hieropt/__init__.py:136-144 | a child's full name splits back into the path to the child |
| RoundTrip.WrittenHarmless | hieropt/__init__.py:146-158 | every line written for a well-formed subtree reads back as a no-op |
| RoundTrip.WriteThenRead | hieropt/test/test_hieropt.py:67-85 | reading back the written file raises nothing and yields the same tree |
| RoundTrip.Statuses | hieropt/test/test_hieropt.py:71-74 | one status per node of the subtree, as many as `__iter__` yields, the first for the node itself under its full name, true exactly for a leaf with nothing stored whose default yields a value; a leaf whose `isSet()` fails makes the whole list fail |
| RoundTrip.WriteReadEquivalence | hieropt/test/test_hieropt.py:67-85 | after the read-back, writing again gives the same text and the same per-name `isSet and isDefault` statuses |

## Left out

- `Float` (`hieropt/__init__.py:336-337`) is left out because it is floating-point parsing and printing. Only the bool, int and free-text kinds are modelled.
- Callable defaults (`hieropt/__init__.py:252-253`) are left out because they run arbitrary code. A default is a literal, the `parent` sentinel, or nothing.
- `Wrap.Fill`: models `textwrap.wrap` as a greedy fill of whitespace-separated words at width 70. Breaking of over-long words and breaking at hyphens are left out. So the width bound is proved only when every word fits, and the model's line breaks can differ from the library's for words containing hyphens.
- `toOptionParser` and `OptparseCallback` (`hieropt/__init__.py:70-75, 222-234`) are left out because they wrap the `optparse` library.
- `readenv` (`hieropt/__init__.py:195-212`) is left out because it reads the process environment.
- `read` (`hieropt/__init__.py:187-193`) is left out because it opens and closes a file. `ReadFp` takes the file's text instead.
- `__getattr__` (`hieropt/__init__.py:113-119`) is left out because it is Python attribute lookup. `Tree.Get` and `Tree.Lookup` stand in for it.
- `copy.deepcopy` (the test at `hieropt/test/test_hieropt.py:366-389`) is left out because an immutable tree is never shared.
- `Scalars.ParseInt`: accepts only an optional sign followed by digits. Python's `int` also allows surrounding whitespace and base prefixes after the sign. Those texts are rejected here, so for them the model is stricter than the source.
- The `OrderedDict` module is not part of this model. Its replace-in-place and insertion-order behaviour is assumed.
- `Format.WriteNode`: returns an error when a value cannot be resolved. It does not model the lines already written to the file before the exception.
- `Values.Call`: calling a group raises the corrected `GroupExpectsNoValue` naming the group's full path, with no line number, where the code as written raises a `TypeError` (see Findings). `Values.IsSet`, `Format.WriteNode` and `RoundTrip.Statuses` inherit that choice when they reach a failing `parent` default under a group.
- Factories (`hieropt/__init__.py:86, 107`): the code accepts any callable as `Child`. The model offers only the library's own classes: `Tree.Factory` builds a `Group` or a leaf of one of the modelled kinds, with no comment and no default.
- `Tree.ExpectsValue` has no contract of its own: `expectsValue()` is `True` exactly for leaves, which the rows for `Tree.NewGroup`, `Tree.NewValue` and `Tree.Construct` state.
- `set(None)` is left out: a stored value is always a real value, so "nothing stored" is only reached through `reset()`.
- `Values.SetFromString`: in the code, a conversion error raised while reading a file is not tagged with a line number. The model follows the code.
- `Format.ReadLines`: parsing a line does not depend on the tree. So the model parses every line before the loop, which gives the same results as parsing each line inside the loop. Past the first error, the lines are never acted on.

## Findings

| source | as written | input that shows it | evidently intended | confidence | as-written member | corrected member |
|---|---|---|---|---|---|---|
| hieropt/__init__.py:121-124 | `Group.__call__` builds `GroupExpectsNoValue` from the full name alone, but that exception's constructor takes a line number and a name, so Python raises a `TypeError` about the argument count | calling `config()` on a group, or resolving `config.x()` where `x` is an unset leaf with default `parent` directly under the group `config` | raise `GroupExpectsNoValue` naming the group's full path, with no line number | high; not executed | Values.GroupCallAsWritten | Values.GroupCallFinding |

=== FILE: base.dfy ===
/** Shared vocabulary: optional values, the exceptions the configuration
    tree raises, and a failure-compatible Result over them. */
module Base {

  datatype Option<+T> = None | Some(value: T)

  /** The conditions hieropt raises. Each constructor names the Python
      exception it stands for. */
  datatype Error =
      /** `MissingName(lineno)`: a data line without `:` or `=`. */
    | MissingName(lineno: nat)
      /** `UnregisteredName(lineno, name)`: the dotted name does not resolve. */
    | UnregisteredName(lineno: nat, name: string)
      /** `GroupExpectsNoValue`: a group was asked for a value. `readfp` tags it
          with a line number; calling a group directly carries only its path. */
    | GroupExpectsNoValue(line: Option<nat>, name: string)
      /** `ValueError` raised by a kind's `fromString`. */
    | ConversionError(text: string)
      /** `ValueError` raised when a node is constructed with a name that starts with `_`. */
    | ForbiddenName(name: string)
      /** `KeyError` raised by `get` for an absent child with no factory. */
    | NoSuchChild(name: string)
      /** `TypeError` raised when a parent-delegating default has no parent to call. */
    | NoParent
      /** `TypeError` raised when an exception constructor gets the wrong number of arguments. */
    | WrongArity(expected: nat, given: nat)

  datatype Result<+T> = Ok(value: T) | Err(error: Error) {
    predicate IsFailure() { Err? }

    function PropagateFailure<U>(): Result<U>
      requires Err?
    {
      Err(error)
    }

    function Extract(): T
      requires Ok?
    {
      value
    }
  }

  /** Concatenation regroups freely; stated once, generically, so that proofs
      about lists of lines need not rediscover it. */
  lemma ConcatAssoc<T>(a: seq<T>, b: seq<T>, c: seq<T>)
    ensures a + (b + c) == (a + b) + c
  {
  }
}

=== FILE: format.dfy ===
/** The text format: `writefp`, which prints a tree in pre-order with
    leaves still at their default commented out, and `readfp`, which folds
    the lines of a file into the tree. */
module Format {
  import opened Base
  import opened Text
  import opened Scalars
  import opened Tree
  import opened Values
  import opened Wrap

  /** What `writefp` prints for a leaf without any value. */
  const NoDefaultText: string := "(no default)"

  /** `writeComment`: each wrapped line of the comment behind `# `. */
  function CommentLines(comment: string): (ls: seq<string>)
    ensures forall k :: 0 <= k < |ls| ==> |ls[k]| >= 2 && ls[k][0] == '#' && '\n' !in ls[k]
    ensures (forall k :: 0 <= k < |Words(comment)| ==> |Words(comment)[k]| <= Width) ==>
              forall k :: 0 <= k < |ls| ==> |ls[k]| <= Width + 2
  {
    var w := WrapComment(comment);
    WrapCommentLines(comment);
    var ls := seq(|w|, i requires 0 <= i < |w| => "# " + w[i]);
    MarkedLines(w, ls);
    ls
  }

  /** Putting `# ` before lines without a newline gives commented-out lines
      without a newline, each two characters longer. */
  lemma MarkedLines(w: seq<string>, ls: seq<string>)
    requires |ls| == |w|
    requires forall k :: 0 <= k < |w| ==> ls[k] == "# " + w[k]
    requires forall k :: 0 <= k < |w| ==> '\n' !in w[k]
    ensures forall k :: 0 <= k < |ls| ==> |ls[k]| == |w[k]| + 2 && ls[k][0] == '#' && '\n' !in ls[k]
  {
    forall k | 0 <= k < |ls|
      ensures |ls[k]| == |w[k]| + 2 && ls[k][0] == '#' && '\n' !in ls[k]
    {
      assert ls[k] == "# " + w[k];
    }
  }

  /** The `name: value` line of a leaf whose full name is `path` and whose
      effective value is `v`; commented out when nothing is stored. */
  function ValueLine(n: Node, path: string, v: Option<Scalar>): (l: string)
    requires n.Value?
    ensures n.stored.None? ==> |l| >= 2 && l[..2] == "# "
    ensures n.stored.Some? ==> |l| >= |path| + 2 && l[..|path| + 2] == path + ": "
    ensures var text := if v.None? then NoDefaultText else Show(v.value);
      |l| >= |text| && l[|l| - |text|..] == text
  {
    (if n.stored.None? then "# " else "") + path + ": " + (if v.None? then NoDefaultText else Show(v.value))
  }

  /** What a node prints before its children: a group its comment and a
      blank line; a leaf its comment, its value line and, when annotating,
      a blank line. */
  function Head(n: Node, path: string, ctx: Context, annotate: bool): (r: Result<seq<string>>)
    ensures r.Ok? <==> n.Group? || Call(n, path, ctx).Ok?
    ensures r.Ok? && n.Value? ==> ValueLine(n, path, Call(n, path, ctx).value) in r.value
    ensures r.Ok? && !annotate ==>
              r.value == (if n.Group? then [] else [ValueLine(n, path, Call(n, path, ctx).value)])
    ensures r.Ok? && annotate && n.Value? ==> r.value[|r.value| - 1] == ""
    ensures r.Ok? && n.Group? && (n.comment.None? || n.comment.value == "") ==> r.value == []
  {
    match n
    case Group(_, comment, _, _) =>
      Ok(if annotate && comment.Some? && comment.value != "" then CommentLines(comment.value) + [""] else [])
    case Value(_, comment, _, _, _, _, _) =>
      var v :- Call(n, path, ctx);
      Ok((if annotate && comment.Some? then CommentLines(comment.value) else [])
         + [ValueLine(n, path, v)]
         + (if annotate then [""] else []))
  }

  /** Number of leaves in the subtree rooted at `n`. */
  function Leaves(n: Node): nat
    decreases n
  {
    (if n.Value? then 1 else 0) + LeavesAll(n.children)
  }

  function LeavesAll(cs: seq<Node>): nat
    decreases cs
  {
    if cs == [] then 0 else Leaves(cs[0]) + LeavesAll(cs[1..])
  }

  /** `writefp(fp, annotate, parentName)` as the list of lines it prints. */
  function WriteNode(n: Node, parentName: string, ctx: Context, annotate: bool): (r: Result<seq<string>>)
    ensures Head(n, Dotted(parentName, n.name), ctx, annotate).Err? ==> r.Err?
    ensures r.Ok? ==> Head(n, Dotted(parentName, n.name), ctx, annotate).Ok?
                      && Head(n, Dotted(parentName, n.name), ctx, annotate).value <= r.value
    ensures r.Ok? && !annotate ==> |r.value| == Leaves(n)
    decreases n
  {
    var path := Dotted(parentName, n.name);
    var head :- Head(n, path, ctx, annotate);
    var rest :- WriteAll(n.children, path, ChildContext(n, path, ctx), annotate);
    Ok(head + rest)
  }

  function WriteAll(cs: seq<Node>, parentName: string, ctx: Context, annotate: bool): (r: Result<seq<string>>)
    ensures r.Ok? && !annotate ==> |r.value| == LeavesAll(cs)
    decreases cs
  {
    if cs == [] then Ok([])
    else
      var first :- WriteNode(cs[0], parentName, ctx, annotate);
      var rest :- WriteAll(cs[1..], parentName, ctx, annotate);
      Ok(first + rest)
  }

  /** `writefp` called on the root of a tree: the text of the file. */
  function WriteFp(t: Node, annotate: bool): (r: Result<string>)
    ensures r.Ok? <==> WriteNode(t, "", Orphan, annotate).Ok?
    ensures r.Ok? && (forall k :: 0 <= k < |WriteNode(t, "", Orphan, annotate).value| ==>
                               '\n' !in WriteNode(t, "", Orphan, annotate).value[k]) ==>
              Lines(r.value) == WriteNode(t, "", Orphan, annotate).value
  {
    var lines :- WriteNode(t, "", Orphan, annotate);
    assert (forall k :: 0 <= k < |lines| ==> '\n' !in lines[k]) ==> Lines(Unlines(lines)) == lines by {
      if forall k :: 0 <= k < |lines| ==> '\n' !in lines[k] {
        LinesUnlines(lines);
      }
    }
    Ok(Unlines(lines))
  }

  /** Each line written for a list of siblings is a line written for one of
      them. */
  lemma {:induction false} WriteAllFrom(cs: seq<Node>, parentName: string, ctx: Context, annotate: bool, l: string)
    requires WriteAll(cs, parentName, ctx, annotate).Ok?
    requires l in WriteAll(cs, parentName, ctx, annotate).value
    ensures exists i :: 0 <= i < |cs| && WriteNode(cs[i], parentName, ctx, annotate).Ok?
                        && l in WriteNode(cs[i], parentName, ctx, annotate).value
    decreases cs
  {
    var first := WriteNode(cs[0], parentName, ctx, annotate).value;
    if l !in first {
      WriteAllFrom(cs[1..], parentName, ctx, annotate, l);
      var i :| 0 <= i < |cs[1..]| && WriteNode(cs[1..][i], parentName, ctx, annotate).Ok?
               && l in WriteNode(cs[1..][i], parentName, ctx, annotate).value;
      assert cs[1..][i] == cs[i + 1];
    }
  }

  /** Writing two runs of siblings writes the first run, then the second,
      and fails exactly when either run fails. */
  lemma {:induction false} WriteAllAppend(cs: seq<Node>, ds: seq<Node>, parentName: string, ctx: Context,
                                          annotate: bool)
    ensures WriteAll(cs + ds, parentName, ctx, annotate).Ok?
            <==> WriteAll(cs, parentName, ctx, annotate).Ok? && WriteAll(ds, parentName, ctx, annotate).Ok?
    ensures WriteAll(cs + ds, parentName, ctx, annotate).Ok? ==>
              WriteAll(cs + ds, parentName, ctx, annotate).value
              == WriteAll(cs, parentName, ctx, annotate).value + WriteAll(ds, parentName, ctx, annotate).value
    decreases |cs|
  {
    if cs == [] {
      assert cs + ds == ds;
    } else {
      var c, tail := cs[0], cs[1..];
      assert cs == [c] + tail;
      assert cs + ds == [c] + (tail + ds);
      WriteAllCons(c, tail, parentName, ctx, annotate);
      WriteAllCons(c, tail + ds, parentName, ctx, annotate);
      WriteAllAppend(tail, ds, parentName, ctx, annotate);
      var f, x, y := WriteNode(c, parentName, ctx, annotate), WriteAll(tail, parentName, ctx, annotate),
                     WriteAll(ds, parentName, ctx, annotate);
      if f.Ok? && x.Ok? && y.Ok? {
        ConcatAssoc(f.value, x.value, y.value);
      }
    }
  }

  /** A run of siblings that starts with `c` writes `c`, then the rest. */
  lemma WriteAllCons(c: Node, tail: seq<Node>, parentName: string, ctx: Context, annotate: bool)
    ensures WriteAll([c] + tail, parentName, ctx, annotate).Ok?
            <==> WriteNode(c, parentName, ctx, annotate).Ok? && WriteAll(tail, parentName, ctx, annotate).Ok?
    ensures WriteAll([c] + tail, parentName, ctx, annotate).Ok? ==>
              WriteAll([c] + tail, parentName, ctx, annotate).value
              == WriteNode(c, parentName, ctx, annotate).value + WriteAll(tail, parentName, ctx, annotate).value
  {
    assert ([c] + tail)[0] == c && ([c] + tail)[1..] == tail;
  }

  /** The lines of child `i` form one block, after the blocks of every
      earlier sibling and before those of every later one; the write fails
      exactly when one of the three parts fails, so a failing child fails it. */
  lemma WriteAllBlocks(cs: seq<Node>, i: nat, parentName: string, ctx: Context, annotate: bool)
    requires i < |cs|
    ensures WriteAll(cs, parentName, ctx, annotate).Ok?
            <==> WriteAll(cs[..i], parentName, ctx, annotate).Ok?
                 && WriteNode(cs[i], parentName, ctx, annotate).Ok?
                 && WriteAll(cs[i + 1..], parentName, ctx, annotate).Ok?
    ensures WriteAll(cs, parentName, ctx, annotate).Ok? ==>
              WriteAll(cs, parentName, ctx, annotate).value
              == WriteAll(cs[..i], parentName, ctx, annotate).value
                 + WriteNode(cs[i], parentName, ctx, annotate).value
                 + WriteAll(cs[i + 1..], parentName, ctx, annotate).value
  {
    var before, after := cs[..i], cs[i + 1..];
    assert cs == before + ([cs[i]] + after);
    WriteAllAppend(before, [cs[i]] + after, parentName, ctx, annotate);
    WriteAllCons(cs[i], after, parentName, ctx, annotate);
    var x, y, z := WriteAll(before, parentName, ctx, annotate), WriteNode(cs[i], parentName, ctx, annotate),
                   WriteAll(after, parentName, ctx, annotate);
    if x.Ok? && y.Ok? && z.Ok? {
      ConcatAssoc(x.value, y.value, z.value);
    }
  }

  /** A node writes its own lines, then its children's. */
  lemma WriteNodeSplit(n: Node, parentName: string, ctx: Context, annotate: bool)
    ensures var path := Dotted(parentName, n.name);
      var cctx := ChildContext(n, path, ctx);
      WriteNode(n, parentName, ctx, annotate).Ok?
      <==> Head(n, path, ctx, annotate).Ok? && WriteAll(n.children, path, cctx, annotate).Ok?
    ensures var path := Dotted(parentName, n.name);
      var cctx := ChildContext(n, path, ctx);
      WriteNode(n, parentName, ctx, annotate).Ok? ==>
        WriteNode(n, parentName, ctx, annotate).value
        == Head(n, path, ctx, annotate).value + WriteAll(n.children, path, cctx, annotate).value
  {
  }

  /** `writefp` writes in pre-order: a node's own lines, then the block of
      each child in insertion order; a child that fails fails the node. */
  lemma WritePreOrder(n: Node, parentName: string, ctx: Context, annotate: bool, i: nat)
    requires i < |n.children|
    ensures var path := Dotted(parentName, n.name);
      var cctx := ChildContext(n, path, ctx);
      WriteNode(n, parentName, ctx, annotate).Ok?
      <==> Head(n, path, ctx, annotate).Ok?
           && WriteAll(n.children[..i], path, cctx, annotate).Ok?
           && WriteNode(n.children[i], path, cctx, annotate).Ok?
           && WriteAll(n.children[i + 1..], path, cctx, annotate).Ok?
    ensures var path := Dotted(parentName, n.name);
      var cctx := ChildContext(n, path, ctx);
      WriteNode(n, parentName, ctx, annotate).Ok? ==>
        WriteNode(n, parentName, ctx, annotate).value
        == Head(n, path, ctx, annotate).value
           + WriteAll(n.children[..i], path, cctx, annotate).value
           + WriteNode(n.children[i], path, cctx, annotate).value
           + WriteAll(n.children[i + 1..], path, cctx, annotate).value
  {
    var path := Dotted(parentName, n.name);
    var cctx := ChildContext(n, path, ctx);
    WriteAllBlocks(n.children, i, path, cctx, annotate);
    WriteNodeSplit(n, parentName, ctx, annotate);
    if WriteNode(n, parentName, ctx, annotate).Ok? {
      var h := Head(n, path, ctx, annotate).value;
      var a := WriteAll(n.children[..i], path, cctx, annotate).value;
      var b := WriteNode(n.children[i], path, cctx, annotate).value;
      var c := WriteAll(n.children[i + 1..], path, cctx, annotate).value;
      ConcatAssoc(h, a + b, c);
      ConcatAssoc(h, a, b);
    }
  }

  /** Every leaf of the subtree has nothing stored. */
  predicate AllDefault(n: Node) {
    (n.Value? ==> n.stored.None?) && forall c :: c in n.children ==> AllDefault(c)
  }

  /** Every leaf of the subtree has a stored value. */
  predicate AllStored(n: Node) {
    (n.Value? ==> n.stored.Some?) && forall c :: c in n.children ==> AllStored(c)
  }

  /** What a node with nothing stored prints before its children is blank
      or commented out. */
  lemma HeadCommentedOut(n: Node, path: string, ctx: Context, annotate: bool)
    requires n.Value? ==> n.stored.None?
    requires Head(n, path, ctx, annotate).Ok?
    ensures forall l :: l in Head(n, path, ctx, annotate).value ==> l == "" || l[0] == '#'
  {
    if n.Value? {
      var cs := if annotate && n.comment.Some? then CommentLines(n.comment.value) else [];
      var vl := ValueLine(n, path, Call(n, path, ctx).value);
      var tail := if annotate then [""] else [];
      assert Head(n, path, ctx, annotate).value == cs + [vl] + tail;
      assert vl[0] == '#';
      forall l | l in cs + [vl] + tail ensures l == "" || l[0] == '#' {
        if l in cs {
          var k :| 0 <= k < |cs| && cs[k] == l;
        }
      }
    }
  }

  /** With only defaults in effect, every non-blank line written is
      commented out. */
  lemma {:induction false} DefaultsCommentedOut(n: Node, parentName: string, ctx: Context, annotate: bool)
    requires AllDefault(n)
    requires WriteNode(n, parentName, ctx, annotate).Ok?
    ensures forall l :: l in WriteNode(n, parentName, ctx, annotate).value ==> l == "" || l[0] == '#'
    decreases n
  {
    var path := Dotted(parentName, n.name);
    var cctx := ChildContext(n, path, ctx);
    HeadCommentedOut(n, path, ctx, annotate);
    forall l | l in WriteNode(n, parentName, ctx, annotate).value ensures l == "" || l[0] == '#' {
      if l !in Head(n, path, ctx, annotate).value {
        WriteAllFrom(n.children, path, cctx, annotate, l);
        var i :| 0 <= i < |n.children| && WriteNode(n.children[i], path, cctx, annotate).Ok?
                 && l in WriteNode(n.children[i], path, cctx, annotate).value;
        DefaultsCommentedOut(n.children[i], path, cctx, annotate);
      }
    }
  }

  /** No node of the subtree carries a comment. */
  predicate Uncommented(n: Node) {
    n.comment.None? && forall c :: c in n.children ==> Uncommented(c)
  }

  /** What a leaf with a stored value prints before its children is not
      commented out; it is blank only for the separator `annotate` adds. */
  lemma StoredHeadNotCommentedOut(n: Node, path: string, ctx: Context, annotate: bool)
    requires n.Value? ==> n.stored.Some?
    requires path != [] && path[0] != '#'
    requires annotate ==> n.comment.None?
    requires Head(n, path, ctx, annotate).Ok?
    ensures forall l :: l in Head(n, path, ctx, annotate).value ==>
              (l == "" || l[0] != '#') && (!annotate ==> l != "")
  {
    if n.Value? {
      var vl := ValueLine(n, path, Call(n, path, ctx).value);
      assert vl[0] == path[0];
    }
  }

  /** With every leaf set, no line written is commented out, provided the
      tree's name does not itself start with `#` and, when annotating, no
      node carries a comment; without annotation no line is blank either. */
  lemma {:induction false} StoredNotCommentedOut(n: Node, parentName: string, ctx: Context, annotate: bool)
    requires AllStored(n)
    requires Named(n)
    requires Dotted(parentName, n.name)[0] != '#'
    requires annotate ==> Uncommented(n)
    requires WriteNode(n, parentName, ctx, annotate).Ok?
    ensures forall l :: l in WriteNode(n, parentName, ctx, annotate).value ==>
              (l == "" || l[0] != '#') && (!annotate ==> l != "")
    decreases n
  {
    var path := Dotted(parentName, n.name);
    var cctx := ChildContext(n, path, ctx);
    StoredHeadNotCommentedOut(n, path, ctx, annotate);
    forall l | l in WriteNode(n, parentName, ctx, annotate).value
      ensures (l == "" || l[0] != '#') && (!annotate ==> l != "")
    {
      if l !in Head(n, path, ctx, annotate).value {
        WriteAllFrom(n.children, path, cctx, annotate, l);
        var i :| 0 <= i < |n.children| && WriteNode(n.children[i], path, cctx, annotate).Ok?
                 && l in WriteNode(n.children[i], path, cctx, annotate).value;
        var c := n.children[i];
        assert AllStored(c);
        assert annotate ==> Uncommented(c);
        assert Dotted(path, c.name)[0] == path[0];
        StoredNotCommentedOut(c, path, cctx, annotate);
      }
    }
  }

  // ---------------------------------------------------------------------
  // Reading

  /** Position of the first `:` or `=`, or `|s|`. */
  function SepIndex(s: string): (i: nat)
    ensures i <= |s|
    ensures forall j :: 0 <= j < i ==> s[j] != ':' && s[j] != '='
    ensures i < |s| ==> s[i] == ':' || s[i] == '='
  {
    if s == [] || s[0] == ':' || s[0] == '=' then 0 else 1 + SepIndex(s[1..])
  }

  /** One line of the file, as `readfp` sees it after stripping. */
  datatype Parsed = Skip | NoSeparator | Assignment(name: string, value: string)

  /** A stripped line that is empty or starts with `#` is skipped. Otherwise
      it is split at the leftmost match of `\s*[:=]\s*`: that match starts at
      the whitespace run just before the first `:` or `=`, so the name is
      the text before that character without trailing whitespace, and the
      value, stripped as `readfp` does, is the stripped text after it. */
  function ParseLine(raw: string): (p: Parsed)
    ensures p.Skip? <==> Strip(raw) == [] || Strip(raw)[0] == '#'
    ensures p.NoSeparator? <==>
              Strip(raw) != [] && Strip(raw)[0] != '#' && ':' !in Strip(raw) && '=' !in Strip(raw)
    ensures p.Assignment? ==> ':' !in p.name && '=' !in p.name && Trimmed(p.value)
  {
    ParseStripped(Strip(raw))
  }

  /** `ParseLine` on a line already stripped. */
  function ParseStripped(line: string): (p: Parsed)
    ensures p.Skip? <==> line == [] || line[0] == '#'
    ensures p.NoSeparator? <==> line != [] && line[0] != '#' && ':' !in line && '=' !in line
    ensures p.Assignment? ==> ':' !in p.name && '=' !in p.name && Trimmed(p.value)
  {
    if line == [] || line[0] == '#' then Skip
    else
      var q := SepIndex(line);
      if q == |line| then NoSeparator
      else
        var name := RStrip(line[..q]);
        assert forall j :: 0 <= j < |name| ==> name[j] == line[j] && name[j] != ':' && name[j] != '=';
        Assignment(name, Strip(line[q + 1..]))
  }

  /** How resolving a dotted name and storing a value ended. */
  datatype Assignment = Assigned | Unresolved | NotAValue | Raised(error: Error)

  /** The walk of `readfp` from a node down the remaining name parts with
      `get`, which may create children through a factory, then
      `setFromString` on the leaf reached. Children created on the way stay
      registered even when the walk fails further down. */
  function Assign(n: Node, parts: seq<string>, text: string): (r: (Node, Assignment))
    ensures r.0.name == n.name
    ensures r.1 == Assigned ==> Lookup(r.0, parts).Some? && Lookup(r.0, parts).value.Value?
    ensures r.1 != Assigned && parts == [] ==> r.0 == n
    ensures r.1.Raised? ==> r.1.error.ForbiddenName? || r.1.error.ConversionError?
    decreases |parts|
  {
    if parts == [] then
      if !n.Value? then (n, NotAValue)
      else
        match SetFromString(n, text)
        case Err(e) => (n, Raised(e))
        case Ok(n') => (n', Assigned)
    else
      match Get(n, parts[0])
      case Err(e) => if e.NoSuchChild? then (n, Unresolved) else (n, Raised(e))
      case Ok((n1, c)) =>
        var below := Assign(c, parts[1..], text);
        var r := Register(n1, below.0);
        assert Lookup(r, parts) == Lookup(below.0, parts[1..]);
        (r, below.1)
  }

  /** The state of the tree after some lines, and the exception that stopped
      the reading, if any. */
  datatype ReadOutcome = ReadOutcome(tree: Node, error: Option<Error>)

  /** The syntax errors carry the number of the line that raised them; the
      errors of `fromString` and of a factory carry none. */
  predicate LineTagged(e: Error, lineno: nat) {
    match e
    case MissingName(l) => l == lineno
    case UnregisteredName(l, _) => l == lineno
    case GroupExpectsNoValue(l, _) => l == Some(lineno)
    case ConversionError(_) => true
    case ForbiddenName(_) => true
    case _ => false
  }

  /** `name = value` on line `lineno`: resolve the dotted name from the
      root `t`, whose own name must come first, and store the converted
      value at the leaf it names. */
  function ReadAssignment(t: Node, name: string, value: string, lineno: nat): (o: ReadOutcome)
    ensures o.tree.name == t.name
    ensures o.error.Some? ==> LineTagged(o.error.value, lineno)
  {
    var parts := SplitOn(name, '.');
    if parts[0] != t.name then ReadOutcome(t, Some(UnregisteredName(lineno, name)))
    else
      var r := Assign(t, parts[1..], value);
      match r.1
      case Assigned => ReadOutcome(r.0, None)
      case Unresolved => ReadOutcome(r.0, Some(UnregisteredName(lineno, name)))
      case NotAValue => ReadOutcome(r.0, Some(GroupExpectsNoValue(Some(lineno), name)))
      case Raised(e) => ReadOutcome(r.0, Some(e))
  }

  /** One iteration of the loop in `readfp` on a parsed line numbered
      `lineno`: a skipped line changes nothing and a line without separator
      raises `MissingName`. */
  function Step(t: Node, p: Parsed, lineno: nat): (o: ReadOutcome)
    ensures o.tree.name == t.name
    ensures o.error.Some? ==> LineTagged(o.error.value, lineno)
  {
    match p
    case Skip => ReadOutcome(t, None)
    case NoSeparator => ReadOutcome(t, Some(MissingName(lineno)))
    case Assignment(name, value) => ReadAssignment(t, name, value, lineno)
  }

  /** Each line of a file, parsed; a line's parse does not depend on the
      tree, so parsing ahead of the loop changes nothing. */
  function ParseAll(lines: seq<string>): (ps: seq<Parsed>)
    ensures |ps| == |lines|
    ensures forall i :: 0 <= i < |lines| ==> ps[i] == ParseLine(lines[i])
  {
    seq(|lines|, i requires 0 <= i < |lines| => ParseLine(lines[i]))
  }

  /** The loop of `readfp` over parsed lines, the first numbered `lineno`.
      It stops at the first exception and keeps what earlier lines did. */
  function ReadLines(t: Node, ps: seq<Parsed>, lineno: nat): (o: ReadOutcome)
    ensures o.tree.name == t.name
    decreases |ps|
  {
    if ps == [] then ReadOutcome(t, None)
    else
      var o := Step(t, ps[0], lineno);
      if o.error.Some? then o else ReadLines(o.tree, ps[1..], lineno + 1)
  }

  /** An exception raised while reading carries the number of one of the
      lines read, when it carries a number at all. */
  lemma {:induction false} ReadLinesTagged(t: Node, ps: seq<Parsed>, lineno: nat)
    ensures var o := ReadLines(t, ps, lineno);
      o.error.Some? ==> exists i :: lineno <= i < lineno + |ps| && LineTagged(o.error.value, i)
    decreases |ps|
  {
    if ps != [] {
      var o := Step(t, ps[0], lineno);
      if o.error.None? {
        ReadLinesTagged(o.tree, ps[1..], lineno + 1);
      }
    }
  }

  /** `readfp(fp)` on a file holding `text`; lines are numbered from 1. */
  function ReadFp(t: Node, text: string): (o: ReadOutcome)
    ensures o.tree.name == t.name
    ensures text == [] ==> o == ReadOutcome(t, None)
    ensures o.error.Some? ==> exists i :: 1 <= i <= |Lines(text)| && LineTagged(o.error.value, i)
  {
    ReadLinesTagged(t, ParseAll(Lines(text)), 1);
    ReadLines(t, ParseAll(Lines(text)), 1)
  }

  /** One turn of the loop: the first line, then the rest unless it
      raised. */
  lemma ReadLinesCons(t: Node, p: Parsed, rest: seq<Parsed>, k: nat)
    ensures ReadLines(t, [p] + rest, k) ==
              var o := Step(t, p, k);
              if o.error.Some? then o else ReadLines(o.tree, rest, k + 1)
  {
    assert ([p] + rest)[0] == p && ([p] + rest)[1..] == rest;
  }

  /** Reading `pre + post` reads `pre`, then, unless that raised, reads
      `post` from the tree `pre` left, numbering on. */
  lemma {:induction false} ReadLinesAppend(t: Node, pre: seq<Parsed>, post: seq<Parsed>, k: nat)
    ensures ReadLines(t, pre + post, k) ==
              var o := ReadLines(t, pre, k);
              if o.error.Some? then o else ReadLines(o.tree, post, k + |pre|)
    decreases |pre|
  {
    if pre == [] {
      assert pre + post == post;
    } else {
      var p, rest := pre[0], pre[1..];
      assert pre == [p] + rest && pre + post == [p] + (rest + post);
      ReadLinesCons(t, p, rest + post, k);
      ReadLinesCons(t, p, rest, k);
      var o := Step(t, p, k);
      if o.error.Some? {
        assert ReadLines(t, pre + post, k) == o;
        assert ReadLines(t, pre, k) == o;
      } else {
        assert ReadLines(t, pre + post, k) == ReadLines(o.tree, rest + post, k + 1);
        assert ReadLines(t, pre, k) == ReadLines(o.tree, rest, k + 1);
        ReadLinesAppend(o.tree, rest, post, k + 1);
      }
    }
  }

  /** Line `i` raised what reading `ps` raised, on the tree the lines before
      it left behind without raising. */
  predicate RaisedAt(t: Node, ps: seq<Parsed>, k: nat, i: nat) {
    i < |ps| && ReadLines(t, ps[..i], k).error.None?
    && Step(ReadLines(t, ps[..i], k).tree, ps[i], k + i) == ReadLines(t, ps, k)
  }

  /** Prefixing a line that reads without raising moves the raising line
      one place on. */
  lemma RaisedAtCons(t: Node, ps: seq<Parsed>, k: nat, j: nat)
    requires ps != [] && Step(t, ps[0], k).error.None?
    requires RaisedAt(Step(t, ps[0], k).tree, ps[1..], k + 1, j)
    ensures RaisedAt(t, ps, k, j + 1)
  {
    var o := Step(t, ps[0], k);
    var q := ps[..j + 1];
    assert q[0] == ps[0] && q[1..] == ps[1..][..j];
    assert ReadLines(t, q, k) == ReadLines(o.tree, ps[1..][..j], k + 1);
    assert ps[1..][j] == ps[j + 1];
  }

  /** An exception stops the reading at the line that raised it: it is what
      that line, numbered by its position, raised on the tree all earlier
      lines left behind. */
  lemma {:induction false} ReadStopsAtFirstError(t: Node, ps: seq<Parsed>, k: nat) returns (i: nat)
    requires ReadLines(t, ps, k).error.Some?
    ensures RaisedAt(t, ps, k, i)
    decreases |ps|
  {
    var o := Step(t, ps[0], k);
    if o.error.Some? {
      assert ps[..0] == [];
      i := 0;
    } else {
      var j := ReadStopsAtFirstError(o.tree, ps[1..], k + 1);
      RaisedAtCons(t, ps, k, j);
      i := j + 1;
    }
  }

  /** Lines that leave the tree as it is, whatever their number, leave it as
      it is together. */
  lemma {:induction false} ReadUnchanging(t: Node, ps: seq<Parsed>, k: nat)
    requires forall i, j :: 0 <= i < |ps| ==> Step(t, ps[i], j) == ReadOutcome(t, None)
    ensures ReadLines(t, ps, k) == ReadOutcome(t, None)
    decreases |ps|
  {
    if ps != [] {
      assert Step(t, ps[0], k) == ReadOutcome(t, None);
      forall i, j | 0 <= i < |ps[1..]| ensures Step(t, ps[1..][i], j) == ReadOutcome(t, None) {
        assert ps[1..][i] == ps[i + 1];
      }
      ReadUnchanging(t, ps[1..], k + 1);
    }
  }

  /** A file of blank and comment lines changes nothing, as reading an empty
      file or a `#!` line does. */
  lemma CommentsOnly(t: Node, text: string)
    requires forall l :: l in Lines(text) ==> ParseLine(l).Skip?
    ensures ReadFp(t, text) == ReadOutcome(t, None)
  {
    var ps := ParseAll(Lines(text));
    forall i, j | 0 <= i < |ps| ensures Step(t, ps[i], j) == ReadOutcome(t, None) {
      assert Lines(text)[i] in Lines(text);
    }
    ReadUnchanging(t, ps, 1);
  }

  /** A name as `writefp` prints it and `readfp` can find it again:
      non-empty, not starting with `#`, free of whitespace and separators. */
  predicate PlainName(p: string) {
    p != [] && p[0] != '#' && forall i :: 0 <= i < |p| ==> !IsSpace(p[i]) && p[i] != ':' && p[i] != '='
  }

  /** A stripped line that is no comment is split at its first separator. */
  lemma SplitStripped(l: string, q: nat)
    requires l != [] && l[0] != '#'
    requires q < |l| && (l[q] == ':' || l[q] == '=')
    requires forall j :: 0 <= j < q ==> l[j] != ':' && l[j] != '='
    ensures ParseStripped(l) == Assignment(RStrip(l[..q]), Strip(l[q + 1..]))
  {
    SepIndexAt(l, q);
  }

  /** The first separator is found where it is. */
  lemma {:induction false} SepIndexAt(l: string, q: nat)
    requires q < |l| && (l[q] == ':' || l[q] == '=')
    requires forall j :: 0 <= j < q ==> l[j] != ':' && l[j] != '='
    ensures SepIndex(l) == q
    decreases q
  {
    if q > 0 {
      assert l[0] != ':' && l[0] != '=';
      SepIndexAt(l[1..], q - 1);
    }
  }

  /** Stripping an assignment line keeps it up to its separator and drops
      the whitespace after the separator when no value follows. */
  lemma StripAssignmentLine(head: string, pad2: string, value: string)
    requires head != [] && !IsSpace(head[0]) && !IsSpace(head[|head| - 1])
    requires AllSpace(pad2) && Trimmed(value)
    ensures Strip(head + pad2 + value) == head + (if value == [] then [] else pad2 + value)
  {
    var line := head + pad2 + value;
    assert line[0] == head[0];
    assert LStrip(line) == line;
    if value != [] {
      assert line[|line| - 1] == value[|value| - 1];
      assert RStrip(line) == line;
      assert line == head + (pad2 + value);
    } else {
      assert line == head + pad2;
      RStripSpaces(head, pad2);
      assert RStrip(head) == head;
      assert head == head + [];
    }
  }

  /** The names `readfp` can split off a line: non-empty, not a comment,
      without separators and without whitespace at either end. Inner
      whitespace is kept. */
  predicate SplitName(name: string) {
    name != [] && name[0] != '#' && Trimmed(name) && ':' !in name && '=' !in name
  }

  /** `name`, optional whitespace, `:` or `=`, optional whitespace, `value`
      assigns `value` to `name`: the split at `\s*[:=]\s*` takes the
      whitespace on both sides of the separator with it. */
  lemma AssignmentCore(name: string, pad1: string, sep: char, pad2: string, value: string)
    requires SplitName(name) && AllSpace(pad1) && AllSpace(pad2) && (sep == ':' || sep == '=')
    requires Trimmed(value)
    ensures ParseLine(name + pad1 + [sep] + pad2 + value) == Assignment(name, value)
  {
    var left := name + pad1;
    var rest := if value == [] then [] else pad2 + value;
    var q := |left|;
    var l := left + [sep] + rest;
    assert l[..q] == left && l[q + 1..] == rest && l[q] == sep;
    assert forall j :: 0 <= j < q ==> l[j] != ':' && l[j] != '=' by {
      forall j | 0 <= j < q ensures l[j] != ':' && l[j] != '=' {
        assert l[j] == left[j];
        if j >= |name| {
          assert left[j] == pad1[j - |name|];
        } else {
          assert left[j] == name[j];
        }
      }
    }
    var head := left + [sep];
    assert head[0] == name[0] && head[|head| - 1] == sep;
    StripAssignmentLine(head, pad2, value);
    assert name + pad1 + [sep] + pad2 + value == head + pad2 + value;
    assert head + rest == l;
    SplitStripped(l, q);
    RStripSpaces(name, pad1);
    assert RStrip(name) == name;
    if value != [] {
      LStripSpaces(pad2, value);
      StripTrimmed(value);
    }
  }

  /** A line of optional whitespace, `name`, optional whitespace, `:` or
      `=`, optional whitespace, `value` and optional whitespace assigns
      `value` to `name`, however far the line is indented and whatever
      inner whitespace the name holds. */
  lemma ParseAssignment(w: string, name: string, pad1: string, sep: char, pad2: string,
                        value: string, w2: string)
    requires AllSpace(w) && AllSpace(w2)
    requires SplitName(name) && AllSpace(pad1) && AllSpace(pad2) && (sep == ':' || sep == '=')
    requires Trimmed(value)
    ensures ParseLine(w + name + pad1 + [sep] + pad2 + value + w2) == Assignment(name, value)
  {
    var core := name + pad1 + [sep] + pad2 + value;
    assert w + name + pad1 + [sep] + pad2 + value + w2 == w + core + w2;
    StripPadded(w, core, w2);
    AssignmentCore(name, pad1, sep, pad2, value);
  }

  /** A line whose first character is `#` is skipped. */
  lemma ParseComment(s: string)
    requires s != [] && s[0] == '#'
    ensures ParseLine(s) == Skip
  {
    StripKeepsHead(s);
  }

  /** A line whose first non-blank character is `#` is skipped, however
      far it is indented. */
  lemma IndentedComment(w: string, rest: string)
    requires AllSpace(w)
    ensures ParseLine(w + "#" + rest) == Skip
  {
    assert w + "#" + rest == w + ("#" + rest);
    LStripSpaces(w, "#" + rest);
    ParseComment("#" + rest);
  }

  /** A line that is neither blank nor a comment and holds no `:` or `=`
      raises `MissingName` with its line number and changes nothing. */
  lemma MissingNameLine(t: Node, raw: string, k: nat)
    requires Strip(raw) != [] && Strip(raw)[0] != '#'
    requires ':' !in Strip(raw) && '=' !in Strip(raw)
    ensures Step(t, ParseLine(raw), k) == ReadOutcome(t, Some(MissingName(k)))
  {
  }

  /** A group prints no `name: value` line: all it prints before its
      children is skipped when read. */
  lemma GroupHeadSkipped(n: Node, path: string, ctx: Context, annotate: bool)
    requires n.Group?
    ensures Head(n, path, ctx, annotate).Ok?
    ensures forall l :: l in Head(n, path, ctx, annotate).value ==> ParseLine(l).Skip?
  {
    forall l | l in Head(n, path, ctx, annotate).value ensures ParseLine(l).Skip? {
      if l == "" {
        assert Strip(l) == "";
      } else {
        ParseComment(l);
      }
    }
  }

  /** A leaf's value line is commented out exactly when nothing is stored
      in the leaf. */
  lemma ValueLineCommented(n: Node, path: string, v: Option<Scalar>)
    requires n.Value? && PlainName(path)
    ensures ParseLine(ValueLine(n, path, v)).Skip? <==> n.stored.None?
  {
    var l := ValueLine(n, path, v);
    if n.stored.None? {
      ParseComment(l);
    } else {
      assert l[0] == path[0];
      StripKeepsHead(l);
    }
  }
}

=== FILE: reading.dfy ===
/** What one line of a configuration file does to a tree, stated in terms
    of the tree: it sets a leaf as `set(fromString(text))` would, or raises
    the syntax error its name calls for. */
module Reading {
  import opened Base
  import opened Text
  import opened Scalars
  import opened Tree
  import opened Values
  import opened Format

  /** Walking to an existing leaf and storing converted text there is
      `set` on that leaf; a failed conversion changes nothing. */
  lemma {:induction false} AssignExisting(n: Node, ps: seq<string>, text: string)
    requires Lookup(n, ps).Some? && Lookup(n, ps).value.Value?
    ensures var r := FromString(Lookup(n, ps).value.kind, text);
      && (r.Ok? ==> Assign(n, ps, text) == (SetAt(n, ps, r.value), Assigned))
      && (r.Err? ==> Assign(n, ps, text) == (n, Raised(r.error)))
    decreases ps
  {
    if ps != [] {
      var c := Child(n, ps[0]).value;
      var i := FindIndex(n.children, ps[0]).value;
      assert Get(n, ps[0]) == Ok((n, c));
      AssignExisting(c, ps[1..], text);
      var m := Lookup(n, ps).value;
      match FromString(m.kind, text)
      case Ok(v) =>
        var c' := SetAt(c, ps[1..], v);
        assert c'.name == ps[0];
        assert FindIndex(n.children, c'.name) == Some(i);
        assert Register(n, c') == n.(children := n.children[i := c']);
      case Err(e) =>
        RegisterPresent(n, c);
    }
  }

  /** Walking to an existing group ends in `NotAValue` and changes nothing. */
  lemma {:induction false} AssignGroup(n: Node, ps: seq<string>, text: string)
    requires Lookup(n, ps).Some? && Lookup(n, ps).value.Group?
    ensures Assign(n, ps, text) == (n, NotAValue)
    decreases ps
  {
    if ps != [] {
      var c := Child(n, ps[0]).value;
      AssignGroup(c, ps[1..], text);
      RegisterPresent(n, c);
    }
  }

  /** Walking into a missing child of a group without factory, along
      existing nodes, ends in `Unresolved` and changes nothing. */
  lemma {:induction false} AssignMissing(n: Node, ps: seq<string>, k: nat, text: string)
    requires k < |ps|
    requires Lookup(n, ps[..k]).Some?
    requires Lookup(n, ps[..k]).value.factory.None?
    requires Child(Lookup(n, ps[..k]).value, ps[k]).None?
    ensures Assign(n, ps, text) == (n, Unresolved)
    decreases k
  {
    if k == 0 {
      assert ps[..0] == [];
    } else {
      assert ps[..k][0] == ps[0] && ps[..k][1..] == ps[1..][..k - 1];
      var c := Child(n, ps[0]).value;
      assert ps[1..][k - 1] == ps[k];
      AssignMissing(c, ps[1..], k - 1, text);
      RegisterPresent(n, c);
    }
  }

  /** The dotted name of the node at `ps` splits back into the names along
      the way when no name holds a dot. */
  lemma SplitPathName(t: Node, ps: seq<string>)
    requires '.' !in t.name && forall k :: 0 <= k < |ps| ==> '.' !in ps[k]
    ensures SplitOn(PathName(t, ps), '.') == [t.name] + ps
  {
    SplitJoin([t.name] + ps, '.');
  }

  /** A line naming an existing node by its full dotted name: a leaf is set
      to the converted text, or the conversion error propagates untagged;
      a group raises `GroupExpectsNoValue` with the line number. */
  lemma ReadNamed(t: Node, ps: seq<string>, text: string, lineno: nat)
    requires '.' !in t.name && forall k :: 0 <= k < |ps| ==> '.' !in ps[k]
    requires Lookup(t, ps).Some?
    ensures var name := PathName(t, ps);
      var m := Lookup(t, ps).value;
      var o := ReadAssignment(t, name, text, lineno);
      && (m.Group? ==> o == ReadOutcome(t, Some(GroupExpectsNoValue(Some(lineno), name))))
      && (m.Value? && FromString(m.kind, text).Ok? ==>
            o == ReadOutcome(SetAt(t, ps, FromString(m.kind, text).value), None))
      && (m.Value? && FromString(m.kind, text).Err? ==>
            o == ReadOutcome(t, Some(ConversionError(text))))
  {
    if Lookup(t, ps).value.Group? {
      ReadNamedGroup(t, ps, text, lineno);
    } else {
      ReadNamedValue(t, ps, text, lineno);
    }
  }

  lemma ReadNamedGroup(t: Node, ps: seq<string>, text: string, lineno: nat)
    requires '.' !in t.name && forall k :: 0 <= k < |ps| ==> '.' !in ps[k]
    requires Lookup(t, ps).Some? && Lookup(t, ps).value.Group?
    ensures var name := PathName(t, ps);
      ReadAssignment(t, name, text, lineno) == ReadOutcome(t, Some(GroupExpectsNoValue(Some(lineno), name)))
  {
    SplitPathName(t, ps);
    assert ([t.name] + ps)[1..] == ps;
    AssignGroup(t, ps, text);
  }

  lemma ReadNamedValue(t: Node, ps: seq<string>, text: string, lineno: nat)
    requires '.' !in t.name && forall k :: 0 <= k < |ps| ==> '.' !in ps[k]
    requires Lookup(t, ps).Some? && Lookup(t, ps).value.Value?
    ensures var m := Lookup(t, ps).value;
      var o := ReadAssignment(t, PathName(t, ps), text, lineno);
      && (FromString(m.kind, text).Ok? ==> o == ReadOutcome(SetAt(t, ps, FromString(m.kind, text).value), None))
      && (FromString(m.kind, text).Err? ==> o == ReadOutcome(t, Some(ConversionError(text))))
  {
    SplitPathName(t, ps);
    assert ([t.name] + ps)[1..] == ps;
    AssignExisting(t, ps, text);
  }

  /** A line whose name does not start with the tree's own name raises
      `UnregisteredName` and changes nothing. */
  lemma ReadForeignRoot(t: Node, name: string, text: string, lineno: nat)
    requires SplitOn(name, '.')[0] != t.name
    ensures ReadAssignment(t, name, text, lineno) == ReadOutcome(t, Some(UnregisteredName(lineno, name)))
  {
  }

  /** A line naming a missing child of a group without factory raises
      `UnregisteredName` and changes nothing. */
  lemma ReadUnregistered(t: Node, ps: seq<string>, k: nat, text: string, lineno: nat)
    requires '.' !in t.name && forall j :: 0 <= j < |ps| ==> '.' !in ps[j]
    requires k < |ps| && Lookup(t, ps[..k]).Some?
    requires Lookup(t, ps[..k]).value.factory.None?
    requires Child(Lookup(t, ps[..k]).value, ps[k]).None?
    ensures ReadAssignment(t, PathName(t, ps), text, lineno)
            == ReadOutcome(t, Some(UnregisteredName(lineno, PathName(t, ps))))
  {
    SplitPathName(t, ps);
    assert ([t.name] + ps)[1..] == ps;
    AssignMissing(t, ps, k, text);
  }

  /** Walking to a group with a leaf factory and then into a missing child
      creates the child with the factory, stores the converted text in it,
      appends it to the group and leaves the group's other children alone. */
  lemma {:induction false} AssignCreates(n: Node, ps: seq<string>, x: string, kind: Kind, text: string)
    requires Lookup(n, ps).Some?
    requires Lookup(n, ps).value.factory == Some(ValueFactory(kind))
    requires Child(Lookup(n, ps).value, x).None? && !Reserved(x)
    requires FromString(kind, text).Ok?
    ensures var r := Assign(n, ps + [x], text);
      var g := Lookup(n, ps).value;
      && r.1 == Assigned
      && Lookup(r.0, ps).Some?
      && Names(Lookup(r.0, ps).value.children) == Names(g.children) + [x]
      && Child(Lookup(r.0, ps).value, x) ==
           Some(Set(Construct(ValueFactory(kind), x).value, FromString(kind, text).value))
      && (forall y :: y != x ==> Child(Lookup(r.0, ps).value, y) == Child(g, y))
    decreases ps
  {
    if ps == [] {
      assert ps + [x] == [x] && [x][0] == x && [x][1..] == [];
      var g := Get(n, x).value;
      var c := g.1;
      var v := FromString(kind, text).value;
      assert c == Construct(ValueFactory(kind), x).value;
      assert SetFromString(c, text) == Ok(Set(c, v));
      assert Assign(c, [], text) == (Set(c, v), Assigned);
      assert x in Names(g.0.children);
    } else {
      var c := Child(n, ps[0]).value;
      assert Get(n, ps[0]) == Ok((n, c));
      assert (ps + [x])[0] == ps[0] && (ps + [x])[1..] == ps[1..] + [x];
      AssignCreates(c, ps[1..], x, kind, text);
      var b := Assign(c, ps[1..] + [x], text).0;
      var r := Register(n, b);
      assert Assign(n, ps + [x], text) == (r, Assigned);
      assert Child(r, ps[0]) == Some(b);
      assert Lookup(r, ps) == Lookup(b, ps[1..]);
    }
  }

  /** A line naming a missing child of a group that has a leaf factory
      creates that child, appends it to the group, stores the converted text
      in it, and leaves the group's other children alone. */
  lemma ReadCreates(t: Node, ps: seq<string>, x: string, kind: Kind, text: string, lineno: nat)
    requires '.' !in t.name && '.' !in x && forall k :: 0 <= k < |ps| ==> '.' !in ps[k]
    requires Lookup(t, ps).Some?
    requires Lookup(t, ps).value.factory == Some(ValueFactory(kind))
    requires Child(Lookup(t, ps).value, x).None? && !Reserved(x)
    requires FromString(kind, text).Ok?
    ensures var o := ReadAssignment(t, PathName(t, ps + [x]), text, lineno);
      var g := Lookup(t, ps).value;
      && o.error.None?
      && Lookup(o.tree, ps).Some?
      && Names(Lookup(o.tree, ps).value.children) == Names(g.children) + [x]
      && Child(Lookup(o.tree, ps).value, x).Some?
      && Child(Lookup(o.tree, ps).value, x).value.Value?
      && Child(Lookup(o.tree, ps).value, x).value.stored == Some(FromString(kind, text).value)
      && (forall y :: y != x ==> Child(Lookup(o.tree, ps).value, y) == Child(g, y))
  {
    var qs := ps + [x];
    assert forall k :: 0 <= k < |qs| ==> '.' !in qs[k] by {
      forall k | 0 <= k < |qs| ensures '.' !in qs[k] {
        if k < |ps| { assert qs[k] == ps[k]; }
      }
    }
    SplitPathName(t, qs);
    assert ([t.name] + qs)[1..] == qs;
    AssignCreates(t, ps, x, kind, text);
  }
}

=== FILE: roundtrip.dfy ===
/** Writing a tree and reading the written file back into the same tree
    changes nothing: the property the test helper
    `assert_write_then_read_equivalence` checks on every tree it builds. */
module RoundTrip {
  import opened Base
  import opened Text
  import opened Scalars
  import opened Tree
  import opened Values
  import opened Format
  import opened Reading

  /** A name `writefp` can print and `readfp` can find again: non-empty,
      without whitespace, separators or dots. */
  predicate GoodName(s: string) {
    s != [] && forall i :: 0 <= i < |s| ==> !IsSpace(s[i]) && s[i] != ':' && s[i] != '=' && s[i] != '.'
  }

  /** Text that reads back as itself: a single line without surrounding
      whitespace, since `readfp` strips the value. */
  predicate OneLine(s: string) {
    Trimmed(s) && '\n' !in s
  }

  /** The trees the round trip holds for: good names, distinct among
      siblings; stored values of the leaf's kind printed on one trimmed
      line; literal defaults printed on one line. */
  predicate WellFormedNode(n: Node) {
    && GoodName(n.name)
    && UniqueNames(n.children)
    && (n.Value? && n.stored.Some? ==> KindOf(n.stored.value) == n.kind && OneLine(Show(n.stored.value)))
    && (n.Value? && n.default.Literal? ==> '\n' !in Show(n.default.v))
    && forall c :: c in n.children ==> WellFormedNode(c)
  }

  /** A root whose name does not start a comment. */
  predicate WellFormed(t: Node) {
    WellFormedNode(t) && t.name[0] != '#'
  }

  /** An effective value whose printed form holds no newline. */
  predicate NoNewline(r: Result<Option<Scalar>>) {
    r.Ok? && r.value.Some? ==> '\n' !in Show(r.value.value)
  }

  predicate ContextNoNewline(ctx: Context) {
    ctx.Parent? ==> NoNewline(ctx.call)
  }

  /** A well-formed node's effective value prints on one line when its
      parent's does. */
  lemma CallNoNewline(n: Node, path: string, ctx: Context)
    requires WellFormedNode(n) && ContextNoNewline(ctx)
    ensures NoNewline(Call(n, path, ctx))
  {
    if n.Value? && n.stored.Some? {
      assert OneLine(Show(n.stored.value));
    }
  }

  /** A line that, read on any line number, leaves `t` as it is. */
  ghost predicate Harmless(t: Node, l: string) {
    '\n' !in l && forall j :: Step(t, ParseLine(l), j) == ReadOutcome(t, None)
  }

  /** Blank lines and lines starting with `#` are harmless. */
  lemma SkippedHarmless(t: Node, l: string)
    requires l == "" || (l[0] == '#' && '\n' !in l)
    ensures Harmless(t, l)
  {
    if l != "" {
      ParseComment(l);
    } else {
      assert Strip(l) == "";
    }
  }

  /** A written full name: a dotted join of good names starting with the
      root's, which is what `SplitOn` and `PlainName` state. */
  predicate PathOf(t: Node, ps: seq<string>, path: string) {
    PlainName(path) && SplitOn(path, '.') == [t.name] + ps
  }

  /** Assigning the text of the value a leaf already holds, under the
      leaf's full name, stores it again, which changes nothing. */
  lemma StoredAssignmentHarmless(t: Node, ps: seq<string>, n: Node, path: string, v: Scalar, j: nat)
    requires Lookup(t, ps) == Some(n) && n.Value? && n.stored == Some(v) && KindOf(v) == n.kind
    requires SplitOn(path, '.') == [t.name] + ps
    ensures ReadAssignment(t, path, Show(v), j) == ReadOutcome(t, None)
  {
    ShowRoundTrip(v);
    assert ([t.name] + ps)[1..] == ps;
    AssignExisting(t, ps, Show(v));
    SetAtStored(t, ps, v);
  }

  /** A line that parses as an assignment which, on any line number,
      leaves `t` as it is, is harmless. */
  lemma AssignmentLineHarmless(t: Node, l: string, name: string, value: string)
    requires '\n' !in l && ParseLine(l) == Assignment(name, value)
    requires forall j :: ReadAssignment(t, name, value, j) == ReadOutcome(t, None)
    ensures Harmless(t, l)
  {
  }

  /** The line `path: text` written for a stored value parses back as
      assigning `text` to `path`. */
  lemma StoredLineParses(path: string, text: string)
    requires PlainName(path) && OneLine(text)
    ensures ParseLine(path + ": " + text) == Assignment(path, text)
  {
    assert path + ": " + text == path + "" + [':'] + " " + text;
    assert SplitName(path);
    AssignmentCore(path, "", ':', " ", text);
  }

  /** That line is a single line. */
  lemma StoredLineSingle(path: string, text: string)
    requires PlainName(path) && OneLine(text)
    ensures '\n' !in path + ": " + text
  {
  }

  /** The line `path: text` of a leaf holding `v` reads back as storing
      `v` again, which changes nothing. */
  lemma StoredLineHarmless(t: Node, ps: seq<string>, n: Node, path: string, v: Scalar)
    requires Lookup(t, ps) == Some(n) && n.Value? && n.stored == Some(v)
    requires KindOf(v) == n.kind && OneLine(Show(v))
    requires PathOf(t, ps, path)
    ensures Harmless(t, path + ": " + Show(v))
  {
    StoredLineParses(path, Show(v));
    StoredLineSingle(path, Show(v));
    forall j ensures ReadAssignment(t, path, Show(v), j) == ReadOutcome(t, None) {
      StoredAssignmentHarmless(t, ps, n, path, v, j);
    }
    AssignmentLineHarmless(t, path + ": " + Show(v), path, Show(v));
  }

  /** The commented-out value line of a leaf with nothing stored is
      harmless, provided the value it documents prints on one line. */
  lemma DefaultLineHarmless(t: Node, n: Node, path: string, v: Option<Scalar>)
    requires n.Value? && n.stored.None? && '\n' !in path
    requires v.Some? ==> '\n' !in Show(v.value)
    ensures Harmless(t, ValueLine(n, path, v))
  {
    var text := if v.None? then NoDefaultText else Show(v.value);
    var l := "# " + path + ": " + text;
    assert ValueLine(n, path, v) == l;
    assert '\n' !in l;
    SkippedHarmless(t, l);
  }

  /** A leaf's value line is harmless: commented out when nothing is
      stored, and storing the stored value again otherwise. */
  lemma ValueLineHarmless(t: Node, ps: seq<string>, n: Node, path: string, ctx: Context)
    requires Lookup(t, ps) == Some(n) && WellFormedNode(n) && n.Value?
    requires PathOf(t, ps, path) && ContextNoNewline(ctx)
    requires Call(n, path, ctx).Ok?
    ensures Harmless(t, ValueLine(n, path, Call(n, path, ctx).value))
  {
    var v := Call(n, path, ctx).value;
    if n.stored.None? {
      CallNoNewline(n, path, ctx);
      assert '\n' !in path;
      DefaultLineHarmless(t, n, path, v);
    } else {
      assert ValueLine(n, path, v) == path + ": " + Show(n.stored.value);
      StoredLineHarmless(t, ps, n, path, n.stored.value);
    }
  }

  /** Written comment lines are harmless. */
  lemma CommentLinesHarmless(t: Node, comment: string)
    ensures forall l :: l in CommentLines(comment) ==> Harmless(t, l)
  {
    var cs := CommentLines(comment);
    forall l | l in cs ensures Harmless(t, l) {
      var k :| 0 <= k < |cs| && cs[k] == l;
      SkippedHarmless(t, l);
    }
  }

  /** Everything a leaf prints before its children is harmless. */
  lemma LeafHeadHarmless(t: Node, ps: seq<string>, n: Node, path: string, ctx: Context, annotate: bool)
    requires Lookup(t, ps) == Some(n) && WellFormedNode(n) && n.Value?
    requires PathOf(t, ps, path) && ContextNoNewline(ctx)
    requires Head(n, path, ctx, annotate).Ok?
    ensures forall l :: l in Head(n, path, ctx, annotate).value ==> Harmless(t, l)
  {
    var cs := if annotate && n.comment.Some? then CommentLines(n.comment.value) else [];
    var vl := ValueLine(n, path, Call(n, path, ctx).value);
    var tail := if annotate then [""] else [];
    assert Head(n, path, ctx, annotate).value == cs + [vl] + tail;
    if annotate && n.comment.Some? {
      CommentLinesHarmless(t, n.comment.value);
    }
    ValueLineHarmless(t, ps, n, path, ctx);
    SkippedHarmless(t, "");
    forall l | l in cs + [vl] + tail ensures Harmless(t, l) {
      if l !in cs && l != vl {
        assert l in tail;
      }
    }
  }

  /** Everything a well-formed node prints before its children is
      harmless. */
  lemma HeadHarmless(t: Node, ps: seq<string>, n: Node, path: string, ctx: Context, annotate: bool)
    requires Lookup(t, ps) == Some(n) && WellFormedNode(n)
    requires PathOf(t, ps, path) && ContextNoNewline(ctx)
    requires Head(n, path, ctx, annotate).Ok?
    ensures forall l :: l in Head(n, path, ctx, annotate).value ==> Harmless(t, l)
  {
    if n.Group? {
      GroupHeadSkipped(n, path, ctx, annotate);
      forall l | l in Head(n, path, ctx, annotate).value ensures Harmless(t, l) {
        assert ParseLine(l).Skip?;
      }
    } else {
      LeafHeadHarmless(t, ps, n, path, ctx, annotate);
    }
  }

  /** A child's full name is again a written full name. */
  lemma ChildPath(t: Node, ps: seq<string>, path: string, x: string)
    requires PathOf(t, ps, path) && GoodName(x)
    ensures PathOf(t, ps + [x], Dotted(path, x))
  {
    var p := path + "." + x;
    assert Dotted(path, x) == p;
    forall i | 0 <= i < |p| ensures !IsSpace(p[i]) && p[i] != ':' && p[i] != '=' {
      if i < |path| {
        assert p[i] == path[i];
      } else if i > |path| {
        assert p[i] == x[i - |path| - 1];
      }
    }
    var parts := [t.name] + ps;
    JoinWithAppend(parts, x, '.');
    assert JoinWith(parts + [x], '.') == p;
    assert '.' !in x;
    SplitJoin(parts + [x], '.');
    assert parts + [x] == [t.name] + (ps + [x]);
  }

  /** Every line written for a well-formed subtree is harmless. */
  lemma {:induction false} WrittenHarmless(t: Node, ps: seq<string>, n: Node, parentName: string,
                                           ctx: Context, annotate: bool)
    requires Lookup(t, ps) == Some(n) && WellFormedNode(n)
    requires PathOf(t, ps, Dotted(parentName, n.name)) && ContextNoNewline(ctx)
    requires WriteNode(n, parentName, ctx, annotate).Ok?
    ensures forall l :: l in WriteNode(n, parentName, ctx, annotate).value ==> Harmless(t, l)
    decreases n
  {
    var path := Dotted(parentName, n.name);
    var cctx := ChildContext(n, path, ctx);
    HeadHarmless(t, ps, n, path, ctx, annotate);
    CallNoNewline(n, path, ctx);
    forall l | l in WriteNode(n, parentName, ctx, annotate).value ensures Harmless(t, l) {
      if l !in Head(n, path, ctx, annotate).value {
        WriteAllFrom(n.children, path, cctx, annotate, l);
        var i :| 0 <= i < |n.children| && WriteNode(n.children[i], path, cctx, annotate).Ok?
                 && l in WriteNode(n.children[i], path, cctx, annotate).value;
        var c := n.children[i];
        assert c in n.children;
        ChildOfMember(n, i);
        LookupAppend(t, ps, c.name);
        ChildPath(t, ps, path, c.name);
        WrittenHarmless(t, ps + [c.name], c, path, cctx, annotate);
      }
    }
  }

  /** Reading back what `writefp` wrote from a well-formed tree raises
      nothing and leaves the tree exactly as it was. */
  lemma {:induction false} WriteThenRead(t: Node, annotate: bool)
    requires WellFormed(t)
    requires WriteFp(t, annotate).Ok?
    ensures ReadFp(t, WriteFp(t, annotate).value) == ReadOutcome(t, None)
  {
    var ls := WriteNode(t, "", Orphan, annotate).value;
    assert Dotted("", t.name) == t.name;
    assert '.' !in t.name;
    SplitJoin([t.name], '.');
    assert [t.name] + [] == [t.name];
    assert PathOf(t, [], t.name);
    WrittenHarmless(t, [], t, "", Orphan, annotate);
    forall k | 0 <= k < |ls| ensures '\n' !in ls[k] {
      assert ls[k] in ls;
    }
    LinesUnlines(ls);
    var ps := ParseAll(ls);
    forall i, j | 0 <= i < |ps| ensures Step(t, ps[i], j) == ReadOutcome(t, None) {
      assert ls[i] in ls;
    }
    ReadUnchanging(t, ps, 1);
  }

  /** `[(name, v.expectsValue() and v.isSet() and v.isDefault()) for
      (name, v) in config]`: in pre-order, each full name with whether it
      is a leaf whose default is in effect and yields a value. The names are
      built with `Dotted` from `path` down, where `__iter__` prefixes each
      child's relative names; the two agree because no name is empty. */
  function Statuses(n: Node, path: string, ctx: Context): (r: Result<seq<(string, bool)>>)
    ensures r.Ok? ==> |r.value| == Size(n) == |Iterate(n)|
    ensures r.Ok? ==> r.value[0].0 == path
    ensures r.Ok? ==> (r.value[0].1 <==> n.Value? && IsDefault(n) && DefaultValue(n, ctx) != Ok(None))
    ensures n.Value? && IsSet(n, ctx).Err? ==> r.Err?
    decreases n
  {
    var here :- if n.Value? then (var s :- IsSet(n, ctx); Ok(s && IsDefault(n))) else Ok(false);
    var rest :- StatusesAll(n.children, path, ChildContext(n, path, ctx));
    Ok([(path, here)] + rest)
  }

  function StatusesAll(cs: seq<Node>, parentPath: string, ctx: Context): (r: Result<seq<(string, bool)>>)
    ensures r.Ok? ==> |r.value| == SizeAll(cs)
    decreases cs
  {
    if cs == [] then Ok([])
    else
      var first :- Statuses(cs[0], Dotted(parentPath, cs[0].name), ctx);
      var rest :- StatusesAll(cs[1..], parentPath, ctx);
      Ok(first + rest)
  }

  /** `assert_write_then_read_equivalence`: after reading back what was
      written, writing again yields the same text and every leaf reports
      the same `isSet`/`isDefault` status. */
  lemma WriteReadEquivalence(t: Node, annotate: bool)
    requires WellFormed(t)
    requires WriteFp(t, annotate).Ok?
    ensures var o := ReadFp(t, WriteFp(t, annotate).value);
      && o.error.None?
      && WriteFp(o.tree, annotate) == WriteFp(t, annotate)
      && Statuses(o.tree, t.name, Orphan) == Statuses(t, t.name, Orphan)
  {
    WriteThenRead(t, annotate);
  }
}

=== FILE: scalars.dfy ===
/** The scalar kinds a leaf can hold and their string coercions:
    `Value` (free text), `Bool` and `Int`. `toString` is Python's `str`
    for every kind; `fromString` is the kind's own parser. */
module Scalars {
  import opened Base
  import opened Text

  /** The leaf classes: `Bool`, `Int`, and the free-text base class `Value`. */
  datatype Kind = BoolKind | IntKind | StrKind

  /** A Python value a leaf can store. */
  datatype Scalar = BoolV(b: bool) | IntV(i: int) | StrV(s: string)

  function KindOf(v: Scalar): Kind {
    match v
    case BoolV(_) => BoolKind
    case IntV(_) => IntKind
    case StrV(_) => StrKind
  }

  /** The decimal digit for `d`. */
  function DigitChar(d: nat): char
    requires d < 10
  {
    "0123456789"[d]
  }

  /** The value of a digit character in bases up to 36, as Python's `int`
      reads it (either letter case); 36 for a character that is no digit. */
  function DigitValue(c: char): nat {
    if '0' <= c <= '9' then c as nat - '0' as nat
    else if 'a' <= c <= 'z' then c as nat - 'a' as nat + 10
    else if 'A' <= c <= 'Z' then c as nat - 'A' as nat + 10
    else 36
  }

  predicate AllDigitsIn(s: string, base: nat) {
    forall i :: 0 <= i < |s| ==> DigitValue(s[i]) < base
  }

  /** The number a string of digits denotes in `base`, most significant first. */
  function DigitsValue(s: string, base: nat): nat
    requires AllDigitsIn(s, base)
  {
    if s == [] then 0 else DigitsValue(s[..|s| - 1], base) * base + DigitValue(s[|s| - 1])
  }

  /** `str(n)` for a natural number: its decimal digits, with no leading zero. */
  function DecimalDigits(n: nat): (s: string)
    ensures |s| >= 1
    ensures AllDigitsIn(s, 10)
    ensures n > 0 ==> s[0] != '0'
    ensures n == 0 ==> s == "0"
    ensures DigitsValue(s, 10) == n
  {
    if n < 10 then
      DigitCharValue(n);
      var s := [DigitChar(n)];
      assert s[..0] == [];
      s
    else
      var p := DecimalDigits(n / 10);
      DigitCharValue(n % 10);
      var s := p + [DigitChar(n % 10)];
      assert s[..|s| - 1] == p && s[0] == p[0];
      s
  }

  /** A digit character has the value it is made from; only `0` is `'0'`. */
  lemma DigitCharValue(d: nat)
    requires d < 10
    ensures DigitValue(DigitChar(d)) == d
    ensures DigitChar(d) == '0' <==> d == 0
  {
  }

  /** `str(i)` for an integer. */
  function IntToString(i: int): string {
    if i < 0 then "-" + DecimalDigits(-i) else DecimalDigits(i)
  }

  /** `str(v)`: the text `toString` and `writefp` produce. */
  function Show(v: Scalar): (r: string)
    ensures v.BoolV? ==> r == (if v.b then "True" else "False")
    ensures v.StrV? ==> r == v.s
    ensures v.IntV? ==> |r| >= 1 && (r[0] == '-' <==> v.i < 0)
    ensures v.IntV? && v.i >= 0 ==> AllDigitsIn(r, 10) && DigitsValue(r, 10) == v.i
    ensures v.IntV? && v.i < 0 ==> AllDigitsIn(r[1..], 10) && DigitsValue(r[1..], 10) == -v.i
    ensures v.IntV? ==> (r == "0" <==> v.i == 0)
    ensures v.IntV? && v.i != 0 ==> |r| >= (if v.i < 0 then 2 else 1) && r[if v.i < 0 then 1 else 0] != '0'
  {
    match v
    case BoolV(b) => if b then "True" else "False"
    case IntV(i) => IntToString(i)
    case StrV(s) => s
  }

  /** The text after an optional leading sign. */
  function SignedBody(s: string): string {
    if s != [] && (s[0] == '-' || s[0] == '+') then s[1..] else s
  }

  /** `int(s, base)`, restricted to an optional sign followed by at least
      one digit of the base. */
  function ParseInt(s: string, base: nat): (r: Result<int>)
    ensures r.Err? ==> r == Err(ConversionError(s))
    ensures r.Ok? && r.value < 0 ==> s != [] && s[0] == '-'
    ensures r.Ok? <==> SignedBody(s) != [] && AllDigitsIn(SignedBody(s), base)
    ensures r.Ok? ==> r.value == (if s[0] == '-' then -1 else 1) * DigitsValue(SignedBody(s), base)
  {
    var body := SignedBody(s);
    if body != [] && AllDigitsIn(body, base) then
      var n: int := DigitsValue(body, base);
      Ok(if s[0] == '-' then -n else n)
    else
      Err(ConversionError(s))
  }

  /** `Int.fromString`: `0x` selects hexadecimal on the rest of the text;
      otherwise a leading `0` selects octal on the whole text; anything else
      is decimal. */
  function IntFromString(s: string): Result<int> {
    if StartsWith(s, "0x") then ParseInt(s[2..], 16)
    else if StartsWith(s, "0") then ParseInt(s, 8)
    else ParseInt(s, 10)
  }

  /** What `Int.fromString` accepts and yields, by the text's first
      characters. */
  lemma IntFromStringCases(s: string)
    ensures var r := IntFromString(s);
      StartsWith(s, "0x") && |s| > 2 && AllDigitsIn(s[2..], 16) ==> r == Ok(DigitsValue(s[2..], 16))
    ensures var r := IntFromString(s);
      !StartsWith(s, "0x") && StartsWith(s, "0") ==>
        (r.Ok? <==> AllDigitsIn(s, 8)) && (r.Ok? ==> r.value == DigitsValue(s, 8))
    ensures var r := IntFromString(s);
      StartsWith(s, "0x") ==>
        (r.Ok? <==> SignedBody(s[2..]) != [] && AllDigitsIn(SignedBody(s[2..]), 16))
        && (r.Ok? ==> r.value == (if s[2] == '-' then -1 else 1) * DigitsValue(SignedBody(s[2..]), 16))
    ensures var r := IntFromString(s);
      !StartsWith(s, "0") ==>
        (r.Ok? <==> SignedBody(s) != [] && AllDigitsIn(SignedBody(s), 10))
        && (r.Ok? ==> r.value == (if s[0] == '-' then -1 else 1) * DigitsValue(SignedBody(s), 10))
    ensures var r := IntFromString(s);
      s != [] && '1' <= s[0] <= '9' ==>
        (r.Ok? <==> AllDigitsIn(s, 10)) && (r.Ok? ==> r.value == DigitsValue(s, 10))
    ensures var r := IntFromString(s);
      r.Ok? && r.value < 0 ==> s != [] && (s[0] == '-' || (StartsWith(s, "0x") && |s| > 2 && s[2] == '-'))
  {
    if StartsWith(s, "0x") {
      assert s[..1] == "0";
    } else if StartsWith(s, "0") {
      assert SignedBody(s) == s;
    } else if s != [] && '1' <= s[0] <= '9' {
      assert SignedBody(s) == s;
    }
  }

  /** The words `Bool.fromString` accepts, after lower-casing. */
  const TrueWords: set<string> := {"true", "on", "1", "yes"}
  const FalseWords: set<string> := {"false", "off", "0", "no"}

  /** `Bool.fromString`: case-insensitive keyword match. */
  function BoolFromString(s: string): (r: Result<bool>)
    ensures r.Ok? <==> Lower(s) in TrueWords + FalseWords
    ensures r == Ok(true) <==> Lower(s) in TrueWords
    ensures r == Ok(false) <==> Lower(s) in FalseWords
    ensures r.Err? ==> r == Err(ConversionError(s))
  {
    var l := Lower(s);
    if l in TrueWords then Ok(true)
    else if l in FalseWords then Ok(false)
    else Err(ConversionError(s))
  }

  /** `fromString` of the leaf class for kind `k`. */
  function FromString(k: Kind, s: string): (r: Result<Scalar>)
    ensures r.Ok? ==> KindOf(r.value) == k
    ensures k == StrKind ==> r == Ok(StrV(s))
    ensures k == BoolKind ==> (r.Ok? <==> BoolFromString(s).Ok?)
                              && (r.Ok? ==> r.value == BoolV(BoolFromString(s).value))
    ensures k == IntKind ==> (r.Ok? <==> IntFromString(s).Ok?)
                             && (r.Ok? ==> r.value == IntV(IntFromString(s).value))
    ensures r.Err? ==> r == Err(ConversionError(s))
  {
    match k
    case BoolKind =>
      var b :- BoolFromString(s);
      Ok(BoolV(b))
    case IntKind =>
      (match IntFromString(s)
       case Ok(i) => Ok(IntV(i))
       case Err(_) => Err(ConversionError(s)))
    case StrKind => Ok(StrV(s))
  }

  /** `0x` selects hexadecimal on the digits after it. */
  lemma IntHexExample()
    ensures IntFromString("0xFF") == Ok(255)
  {
    assert StartsWith("0xFF", "0x") && "0xFF"[2..] == "FF";
    assert "FF"[..1] == "F" && "F"[..0] == "";
    assert DigitsValue("FF", 16) == 255;
  }

  /** A leading `0` selects octal on the whole text, so `8` is no digit. */
  lemma IntOctalExamples()
    ensures IntFromString("0777") == Ok(7 * 64 + 7 * 8 + 7)
    ensures IntFromString("08").Err?
    ensures IntFromString("0") == Ok(0)
  {
    assert "0777"[..2] == "07" && "0777"[..1] == "0";
    assert !StartsWith("0777", "0x") && StartsWith("0777", "0");
    assert "0777"[..3] == "077" && "077"[..2] == "07" && "07"[..1] == "0" && "0"[..0] == "";
    assert DigitsValue("0777", 8) == 511;
    assert !AllDigitsIn("08", 8) by { assert DigitValue("08"[1]) == 8; }
  }

  /** Anything else is decimal, sign included. */
  lemma IntDecimalExamples()
    ensures IntFromString("-1") == Ok(-1)
    ensures IntFromString("1") == Ok(1)
  {
    assert "-1"[..1] == "-" && !StartsWith("-1", "0") && "-1"[1..] == "1";
    assert "1"[..0] == "" && DigitsValue("1", 10) == 1;
  }

  /** `int()` takes a sign in every branch: after `0x`, and in decimal text
      with a leading zero behind the sign. A bare or non-hex `0x` fails. */
  lemma IntSignedExamples()
    ensures IntFromString("+5") == Ok(5)
    ensures IntFromString("0x-1") == Ok(-1)
    ensures IntFromString("-012") == Ok(-12)
    ensures IntFromString("0x").Err? && IntFromString("0xZZ").Err?
  {
    IntPlusExample();
    IntHexSignExample();
    IntSignedZeroExample();
    IntHexFailures();
  }

  lemma IntPlusExample()
    ensures IntFromString("+5") == Ok(5)
  {
    IntFromStringCases("+5");
    assert "+5"[..1] == "+" && SignedBody("+5") == "5" && "5"[..0] == "";
  }

  lemma IntHexSignExample()
    ensures IntFromString("0x-1") == Ok(-1)
  {
    assert "0x-1"[..2] == "0x" && "0x-1"[2..] == "-1";
    assert SignedBody("-1") == "1" && "1"[..0] == "";
    assert ParseInt("-1", 16) == Ok(-1);
  }

  lemma IntSignedZeroExample()
    ensures IntFromString("-012") == Ok(-12)
  {
    assert "-012"[..1] == "-" && !StartsWith("-012", "0x") && !StartsWith("-012", "0");
    assert SignedBody("-012") == "012";
    assert "012"[..2] == "01" && "01"[..1] == "0" && "0"[..0] == "";
    assert DigitsValue("012", 10) == 12;
  }

  lemma IntHexFailures()
    ensures IntFromString("0x").Err? && IntFromString("0xZZ").Err?
  {
    assert "0x"[..2] == "0x" && "0x"[2..] == "";
    assert "0xZZ"[..2] == "0x" && "0xZZ"[2..] == "ZZ" && SignedBody("ZZ") == "ZZ";
    assert DigitValue("ZZ"[0]) == 35;
  }

  /** The prefix dispatch of `Int.fromString` on the literals its tests use. */
  lemma IntFromStringExamples()
    ensures IntFromString("0xFF") == Ok(255)
    ensures IntFromString("0777") == Ok(7 * 64 + 7 * 8 + 7)
    ensures IntFromString("08").Err?
    ensures IntFromString("-1") == Ok(-1)
    ensures IntFromString("1") == Ok(1)
    ensures IntFromString("0") == Ok(0)
  {
    IntHexExample();
    IntOctalExamples();
    IntDecimalExamples();
  }

  /** Decimal digits are neither whitespace nor a sign. */
  lemma DigitsArePlain(d: string)
    requires AllDigitsIn(d, 10)
    ensures forall k :: 0 <= k < |d| ==> !IsSpace(d[k]) && d[k] != '-' && d[k] != '+'
  {
    forall k | 0 <= k < |d| ensures !IsSpace(d[k]) && d[k] != '-' && d[k] != '+' {
      assert DigitValue(d[k]) < 10;
    }
  }

  /** `Int.fromString(str(i)) == i` for every integer `i`. */
  lemma IntRoundTrip(i: int)
    ensures IntFromString(IntToString(i)) == Ok(i)
  {
    if i < 0 {
      IntReadsNegative(DecimalDigits(-i));
    } else if i == 0 {
      IntOctalExamples();
    } else {
      IntReadsPositive(DecimalDigits(i));
    }
  }

  /** A `-` followed by decimal digits reads as the negated digits. */
  lemma IntReadsNegative(d: string)
    requires d != [] && AllDigitsIn(d, 10)
    ensures IntFromString("-" + d) == Ok(-(DigitsValue(d, 10) as int))
  {
    var s := "-" + d;
    assert s[0] == '-' && s[1..] == d;
    assert !StartsWith(s, "0x") && !StartsWith(s, "0");
    assert SignedBody(s) == d;
  }

  /** Decimal digits without a leading zero read as decimal. */
  lemma IntReadsPositive(d: string)
    requires d != [] && AllDigitsIn(d, 10) && d[0] != '0'
    ensures IntFromString(d) == Ok(DigitsValue(d, 10))
  {
    assert '1' <= d[0] <= '9' by { assert DigitValue(d[0]) < 10; }
    IntFromStringCases(d);
  }

  /** `Bool.fromString` accepts any letter case of its keywords. */
  lemma BoolExamples()
    ensures BoolFromString("On") == Ok(true) && BoolFromString("YES") == Ok(true)
    ensures BoolFromString("Off") == Ok(false) && BoolFromString("NO") == Ok(false)
    ensures BoolFromString("maybe").Err?
  {
    assert Lower("On") == "on";
    assert Lower("YES") == "yes";
    assert Lower("Off") == "off";
    assert Lower("NO") == "no";
    assert Lower("maybe") == "maybe";
  }

  /** Bool conversion depends only on the lower-cased text. */
  lemma BoolCaseInsensitive(s: string)
    ensures BoolFromString(s).Ok? == BoolFromString(Lower(s)).Ok?
    ensures BoolFromString(s).Ok? ==> BoolFromString(s) == BoolFromString(Lower(s))
  {
    LowerIdempotent(s);
  }

  /** `fromString(toString(v)) == v` for every value of each kind. */
  lemma ShowRoundTrip(v: Scalar)
    ensures FromString(KindOf(v), Show(v)) == Ok(v)
  {
    match v
    case BoolV(b) =>
      if b {
        assert Lower("True") == "true";
      } else {
        assert Lower("False") == "false";
      }
    case IntV(i) =>
      IntRoundTrip(i);
    case StrV(_) =>
  }

  /** `str(i)` holds no whitespace and at least one character. */
  lemma IntToStringPlain(i: int)
    ensures |IntToString(i)| >= 1
    ensures forall k :: 0 <= k < |IntToString(i)| ==> !IsSpace(IntToString(i)[k])
  {
    var d := DecimalDigits(if i < 0 then -i else i);
    DigitsArePlain(d);
    if i < 0 {
      var s := "-" + d;
      assert IntToString(i) == s;
      forall k | 0 <= k < |s| ensures !IsSpace(s[k]) {
        if k > 0 {
          assert s[k] == d[k - 1];
        }
      }
    }
  }

  /** Python's `str` of a bool or an int is a single trimmed line. */
  lemma ShowNumberIsTrimmed(v: Scalar)
    requires !v.StrV?
    ensures Trimmed(Show(v)) && '\n' !in Show(v)
  {
    if v.IntV? {
      var s := IntToString(v.i);
      IntToStringPlain(v.i);
      assert Show(v) == s;
      assert !IsSpace(s[0]) && !IsSpace(s[|s| - 1]);
    }
  }
}

=== FILE: text.dfy ===
/** The string operations the configuration file format is built from:
    Python's whitespace stripping, `str.split` on one character, ASCII
    lower-casing, and the file object's line iteration. */
module Text {

  /** The characters Python's `str.strip()` and the regular expression
      class `\s` treat as whitespace. */
  predicate IsSpace(c: char) {
    c == ' ' || c == '\t' || c == '\n' || c == '\r' || c as int == 11 || c as int == 12
  }

  /** True when `s` holds no whitespace at either end. */
  predicate Trimmed(s: string) {
    s == [] || (!IsSpace(s[0]) && !IsSpace(s[|s| - 1]))
  }

  predicate StartsWith(s: string, prefix: string) {
    |prefix| <= |s| && s[..|prefix|] == prefix
  }

  /** `s.lstrip()`: the suffix left after dropping leading whitespace. */
  function LStrip(s: string): (r: string)
    ensures |r| <= |s| && r == s[|s| - |r|..]
    ensures r == [] || !IsSpace(r[0])
    ensures forall i :: 0 <= i < |s| - |r| ==> IsSpace(s[i])
  {
    if s != [] && IsSpace(s[0]) then
      var r := LStrip(s[1..]);
      assert s[1..][|s| - 1 - |r|..] == s[|s| - |r|..];
      assert forall i :: 0 < i < |s| - |r| ==> s[i] == s[1..][i - 1];
      r
    else s
  }

  /** `s.rstrip()`: the prefix left after dropping trailing whitespace. */
  function RStrip(s: string): (r: string)
    ensures |r| <= |s| && r == s[..|r|]
    ensures r == [] || !IsSpace(r[|r| - 1])
    ensures forall i :: |r| <= i < |s| ==> IsSpace(s[i])
  {
    if s != [] && IsSpace(s[|s| - 1]) then
      var r := RStrip(s[..|s| - 1]);
      assert s[..|s| - 1][..|r|] == s[..|r|];
      assert forall i :: |r| <= i < |s| - 1 ==> s[i] == s[..|s| - 1][i];
      r
    else s
  }

  /** `s.strip()`. */
  function Strip(s: string): (r: string)
    ensures Trimmed(r)
    ensures |r| <= |s|
    ensures r == [] <==> forall i :: 0 <= i < |s| ==> IsSpace(s[i])
    ensures exists i :: 0 <= i <= |s| - |r| && r == s[i..i + |r|]
                        && AllSpace(s[..i]) && AllSpace(s[i + |r|..])
  {
    var l := LStrip(s);
    var r := RStrip(l);
    StripSlice(s, l, r);
    r
  }

  /** Where the stripped text sits inside the original. */
  lemma StripSlice(s: string, l: string, r: string)
    requires |l| <= |s| && l == s[|s| - |l|..]
    requires forall i :: 0 <= i < |s| - |l| ==> IsSpace(s[i])
    requires |r| <= |l| && r == l[..|r|]
    requires forall i :: |r| <= i < |l| ==> IsSpace(l[i])
    ensures var i := |s| - |l|;
      r == s[i..i + |r|] && AllSpace(s[..i]) && AllSpace(s[i + |r|..])
  {
    var i := |s| - |l|;
    var suffix := s[i + |r|..];
    assert suffix == l[|r|..];
    forall k | 0 <= k < |suffix| ensures IsSpace(suffix[k]) {
      assert suffix[k] == l[|r| + k];
    }
  }

  /** Stripping text that is already trimmed changes nothing. */
  lemma StripTrimmed(s: string)
    requires Trimmed(s)
    ensures Strip(s) == s
  {
  }

  /** Stripping keeps the first character when it is not whitespace. */
  lemma StripKeepsHead(s: string)
    requires s != [] && !IsSpace(s[0])
    ensures Strip(s) != [] && Strip(s)[0] == s[0]
  {
    assert LStrip(s) == s;
  }

  /** Only whitespace: what `\s*` matches. */
  predicate AllSpace(w: string) {
    forall i :: 0 <= i < |w| ==> IsSpace(w[i])
  }

  /** Whitespace in front is what `lstrip` removes. */
  lemma {:induction false} LStripSpaces(w: string, s: string)
    requires AllSpace(w)
    ensures LStrip(w + s) == LStrip(s)
    decreases |w|
  {
    if w == [] {
      assert w + s == s;
    } else {
      assert (w + s)[1..] == w[1..] + s;
      LStripSpaces(w[1..], s);
    }
  }

  /** Whitespace behind is what `rstrip` removes. */
  lemma {:induction false} RStripSpaces(s: string, w: string)
    requires AllSpace(w)
    ensures RStrip(s + w) == RStrip(s)
    decreases |w|
  {
    if w == [] {
      assert s + w == s;
    } else {
      var w' := w[..|w| - 1];
      assert (s + w)[..|s + w| - 1] == s + w';
      RStripSpaces(s, w');
    }
  }

  /** Characters behind text that `lstrip` leaves non-empty stay behind it. */
  lemma {:induction false} LStripAppend(s: string, t: string)
    requires LStrip(s) != []
    ensures LStrip(s + t) == LStrip(s) + t
    decreases |s|
  {
    assert (s + t)[0] == s[0];
    if IsSpace(s[0]) {
      assert LStrip(s) == LStrip(s[1..]);
      assert (s + t)[1..] == s[1..] + t;
      assert LStrip(s + t) == LStrip(s[1..] + t);
      LStripAppend(s[1..], t);
    } else {
      assert LStrip(s) == s;
      assert LStrip(s + t) == s + t;
    }
  }

  /** Whitespace around a text is what `strip` removes. */
  lemma StripPadded(w: string, s: string, w2: string)
    requires AllSpace(w) && AllSpace(w2)
    ensures Strip(w + s + w2) == Strip(s)
  {
    assert w + s + w2 == w + (s + w2);
    LStripSpaces(w, s + w2);
    if LStrip(s) == [] {
      assert forall i :: 0 <= i < |s| ==> IsSpace(s[i]);
      assert forall i :: 0 <= i < |w + s + w2| ==> IsSpace((w + s + w2)[i]) by {
        forall i | 0 <= i < |w + s + w2| ensures IsSpace((w + s + w2)[i]) {
          if i < |w| {
            assert (w + s + w2)[i] == w[i];
          } else if i < |w| + |s| {
            assert (w + s + w2)[i] == s[i - |w|];
          } else {
            assert (w + s + w2)[i] == w2[i - |w| - |s|];
          }
        }
      }
    } else {
      LStripAppend(s, w2);
      RStripSpaces(LStrip(s), w2);
    }
  }

  /** Leading whitespace never survives stripping. */
  lemma StripDropsLeadingSpace(c: char, s: string)
    requires IsSpace(c)
    ensures Strip([c] + s) == Strip(s)
  {
    assert ([c] + s)[1..] == s;
  }

  /** Position of the first `c` in `s`, or `|s|` when there is none. */
  function IndexOf(s: string, c: char): (i: nat)
    ensures i <= |s|
    ensures forall j :: 0 <= j < i ==> s[j] != c
    ensures i < |s| ==> s[i] == c
  {
    if s == [] then 0
    else if s[0] == c then 0
    else 1 + IndexOf(s[1..], c)
  }

  /** `s.split(c)` in Python: the pieces between occurrences of `c`, never
      an empty list. */
  function SplitOn(s: string, c: char): (parts: seq<string>)
    ensures |parts| >= 1
    ensures forall k :: 0 <= k < |parts| ==> c !in parts[k]
    ensures JoinWith(parts, c) == s
    decreases |s|
  {
    var i := IndexOf(s, c);
    if i == |s| then
      [s]
    else
      var rest := SplitOn(s[i + 1..], c);
      assert s == s[..i] + [c] + s[i + 1..];
      [s[..i]] + rest
  }

  /** `c.join(parts)` in Python, for a non-empty list. */
  function JoinWith(parts: seq<string>, c: char): string
    requires |parts| >= 1
  {
    if |parts| == 1 then parts[0] else parts[0] + [c] + JoinWith(parts[1..], c)
  }

  /** Splitting a join gives back the pieces, provided no piece holds the
      separator. */
  lemma {:induction false} SplitJoin(parts: seq<string>, c: char)
    requires |parts| >= 1
    requires forall k :: 0 <= k < |parts| ==> c !in parts[k]
    ensures SplitOn(JoinWith(parts, c), c) == parts
  {
    var s := JoinWith(parts, c);
    var head := parts[0];
    if |parts| == 1 {
      SplitNone(head, c);
    } else {
      var tail := JoinWith(parts[1..], c);
      assert s == head + [c] + tail;
      SplitStep(head, tail, c);
      SplitJoin(parts[1..], c);
      assert parts == [head] + parts[1..];
    }
  }

  /** Text without the separator splits into itself alone. */
  lemma SplitNone(s: string, c: char)
    requires c !in s
    ensures SplitOn(s, c) == [s]
  {
    assert IndexOf(s, c) == |s|;
  }

  /** Splitting stops at the first separator and goes on behind it. */
  lemma SplitStep(head: string, tail: string, c: char)
    requires c !in head
    ensures SplitOn(head + [c] + tail, c) == [head] + SplitOn(tail, c)
  {
    var s := head + [c] + tail;
    assert s[|head|] == c;
    assert forall j :: 0 <= j < |head| ==> s[j] == head[j];
    var i := IndexOf(s, c);
    assert i == |head|;
    assert s[..i] == head;
    assert s[i + 1..] == tail;
  }

  /** Appending one piece to a join appends one separator and the piece. */
  lemma {:induction false} JoinWithAppend(parts: seq<string>, x: string, c: char)
    requires |parts| >= 1
    ensures JoinWith(parts + [x], c) == JoinWith(parts, c) + [c] + x
  {
    if |parts| == 1 {
    } else {
      assert (parts + [x])[1..] == parts[1..] + [x];
      JoinWithAppend(parts[1..], x, c);
    }
  }

  /** Joining the two halves of a split list, with one separator between
      them, joins the whole list. */
  lemma {:induction false} JoinWithSplit(parts: seq<string>, n: nat, c: char)
    requires 1 <= n < |parts|
    ensures JoinWith(parts[..n], c) + [c] + JoinWith(parts[n..], c) == JoinWith(parts, c)
    decreases n
  {
    if n > 1 {
      var tail := parts[1..];
      assert parts[..n][1..] == tail[..n - 1];
      assert tail[n - 1..] == parts[n..];
      JoinWithSplit(tail, n - 1, c);
    }
  }

  /** Every character of a join is a character of some piece, or the separator. */
  lemma {:induction false} JoinWithChars(parts: seq<string>, c: char, ch: char)
    requires |parts| >= 1
    requires ch in JoinWith(parts, c)
    ensures ch == c || exists k :: 0 <= k < |parts| && ch in parts[k]
  {
    if |parts| > 1 {
      var rest := JoinWith(parts[1..], c);
      assert JoinWith(parts, c) == parts[0] + [c] + rest;
      if ch !in parts[0] && ch != c {
        JoinWithChars(parts[1..], c, ch);
        var k :| 0 <= k < |parts| - 1 && ch in parts[1..][k];
        assert ch in parts[k + 1];
      }
    }
  }

  function LowerChar(ch: char): char {
    if 'A' <= ch <= 'Z' then (ch as int + 32) as char else ch
  }

  /** `s.lower()` on ASCII text. */
  function Lower(s: string): (r: string)
    ensures |r| == |s|
    ensures forall i :: 0 <= i < |r| ==> !('A' <= r[i] <= 'Z')
    ensures forall i :: 0 <= i < |s| && !('A' <= s[i] <= 'Z') ==> r[i] == s[i]
    ensures forall i :: 0 <= i < |s| && 'A' <= s[i] <= 'Z' ==> r[i] as int == s[i] as int + 32
  {
    seq(|s|, i requires 0 <= i < |s| => LowerChar(s[i]))
  }

  /** Lower-casing twice is lower-casing once. */
  lemma LowerIdempotent(s: string)
    ensures Lower(Lower(s)) == Lower(s)
  {
  }

  /** The text of a file whose lines are `lines`, each ended by a newline
      (how `writefp` produces its output). */
  function Unlines(lines: seq<string>): (s: string)
    ensures |s| >= |lines|
  {
    if lines == [] then "" else lines[0] + "\n" + Unlines(lines[1..])
  }

  /** The lines `for line in fp` yields, with their terminating newline
      removed (every line is stripped before use, so the terminator never
      matters). A final line without a newline is still a line. */
  function Lines(s: string): (lines: seq<string>)
    ensures forall k :: 0 <= k < |lines| ==> '\n' !in lines[k]
    ensures lines == [] <==> s == []
    decreases |s|
  {
    if s == [] then []
    else
      var i := IndexOf(s, '\n');
      if i == |s| then [s] else [s[..i]] + Lines(s[i + 1..])
  }

  /** The lines joined by newlines give the text back, up to one final
      newline. */
  lemma {:induction false} LinesJoin(s: string)
    requires s != []
    ensures JoinWith(Lines(s), '\n') == s || JoinWith(Lines(s), '\n') + "\n" == s
    decreases |s|
  {
    var i := IndexOf(s, '\n');
    if i < |s| {
      var rest := s[i + 1..];
      var lines := [s[..i]] + Lines(rest);
      assert Lines(s) == lines;
      assert s == s[..i] + "\n" + rest;
      if rest != [] {
        LinesJoin(rest);
        assert lines[1..] == Lines(rest);
      }
    }
  }

  /** Reading back the text written from newline-free lines yields those lines. */
  lemma {:induction false} LinesUnlines(lines: seq<string>)
    requires forall k :: 0 <= k < |lines| ==> '\n' !in lines[k]
    ensures Lines(Unlines(lines)) == lines
  {
    if lines != [] {
      var head := lines[0];
      var rest := Unlines(lines[1..]);
      var s := Unlines(lines);
      assert s == head + "\n" + rest;
      assert forall j :: 0 <= j < |head| ==> s[j] == head[j];
      assert s[|head|] == '\n';
      assert IndexOf(s, '\n') == |head|;
      assert s[..|head|] == head;
      assert s[|head| + 1..] == rest;
      LinesUnlines(lines[1..]);
      assert lines == [head] + lines[1..];
    }
  }
}

=== FILE: tree.dfy ===
/** The configuration tree: `Group` nodes with an ordered map of named
    children and an optional child factory, and `Value` leaves that are
    groups holding a stored value and a default.

    The tree is an immutable value. Python's `_parent` back-references are
    not stored: a node's full name and its parent's value are passed down
    by whoever walks the tree from the root. */
module Tree {
  import opened Base
  import opened Text
  import opened Scalars

  /** A leaf's default: none (`default=None`), a literal scalar, or the
      `parent` sentinel, which delegates to the parent's value. */
  datatype Default = NoDefault | Literal(v: Scalar) | FromParent

  /** The `Child` callable of an open-ended group: the class whose
      constructor `get` calls with the requested name. */
  datatype Factory = GroupFactory | ValueFactory(kind: Kind)

  datatype Node =
    | Group(name: string, comment: Option<string>, factory: Option<Factory>, children: seq<Node>)
    | Value(name: string, comment: Option<string>, factory: Option<Factory>, children: seq<Node>,
            kind: Kind, stored: Option<Scalar>, default: Default)

  /** `expectsValue()`: true for leaves only. */
  predicate ExpectsValue(n: Node) {
    n.Value?
  }

  /** Names starting with `_` are reserved for the node's own attributes. */
  predicate Reserved(name: string) {
    StartsWith(name, "_")
  }

  /** `Group(name, comment, Child)`. */
  function NewGroup(name: string, comment: Option<string>, factory: Option<Factory>): (r: Result<Node>)
    ensures r.Err? <==> Reserved(name)
    ensures r.Err? ==> r.error == ForbiddenName(name)
    ensures r.Ok? ==> !ExpectsValue(r.value) && r.value.name == name && r.value.children == []
    ensures r.Ok? ==> r.value.comment == comment && r.value.factory == factory
  {
    if Reserved(name) then Err(ForbiddenName(name)) else Ok(Group(name, comment, factory, []))
  }

  /** `Bool(name, default, ...)`, `Int(...)` or `Value(...)`: a leaf with
      nothing stored yet. */
  function NewValue(name: string, kind: Kind, default: Default, comment: Option<string>,
                    factory: Option<Factory>): (r: Result<Node>)
    ensures r.Err? <==> Reserved(name)
    ensures r.Err? ==> r.error == ForbiddenName(name)
    ensures r.Ok? ==> ExpectsValue(r.value) && r.value.name == name && r.value.children == []
    ensures r.Ok? ==> r.value.stored == None && r.value.default == default && r.value.kind == kind
    ensures r.Ok? ==> r.value.comment == comment && r.value.factory == factory
  {
    if Reserved(name) then Err(ForbiddenName(name))
    else Ok(Value(name, comment, factory, [], kind, None, default))
  }

  /** `Child(name)`: what an open-ended group builds for an unknown name. */
  function Construct(f: Factory, name: string): (r: Result<Node>)
    ensures r.Err? <==> Reserved(name)
    ensures r.Ok? ==> r.value.name == name && r.value.children == [] && r.value.factory == None
    ensures r.Ok? ==> (ExpectsValue(r.value) <==> f.ValueFactory?)
    ensures r.Ok? && f.ValueFactory? ==> r.value.kind == f.kind && r.value.stored == None
    ensures r.Ok? ==> r.value.comment == None && (f.ValueFactory? ==> r.value.default == NoDefault)
  {
    match f
    case GroupFactory => NewGroup(name, None, None)
    case ValueFactory(k) => NewValue(name, k, NoDefault, None, None)
  }

  /** The child names, in insertion order. */
  function Names(cs: seq<Node>): (r: seq<string>)
    ensures |r| == |cs|
    ensures forall i :: 0 <= i < |cs| ==> r[i] == cs[i].name
  {
    seq(|cs|, i requires 0 <= i < |cs| => cs[i].name)
  }

  /** The ordered-dictionary invariant: no two children share a name. */
  predicate UniqueNames(cs: seq<Node>) {
    forall i, j :: 0 <= i < j < |cs| ==> cs[i].name != cs[j].name
  }

  /** Position of the child called `name`. */
  function FindIndex(cs: seq<Node>, name: string): (r: Option<nat>)
    ensures r.Some? ==> r.value < |cs| && cs[r.value].name == name
    ensures r.Some? ==> forall j :: 0 <= j < r.value ==> cs[j].name != name
    ensures r.None? <==> name !in Names(cs)
  {
    if cs == [] then None
    else if cs[0].name == name then Some(0)
    else
      match FindIndex(cs[1..], name)
      case None => None
      case Some(i) => Some(i + 1)
  }

  /** `self._children[name]`, without the factory fallback. */
  function Child(n: Node, name: string): (r: Option<Node>)
    ensures r.Some? ==> r.value in n.children && r.value.name == name
    ensures r.None? <==> name !in Names(n.children)
  {
    match FindIndex(n.children, name)
    case None => None
    case Some(i) => Some(n.children[i])
  }

  /** With unique names, every child is found under its own name. */
  lemma ChildOfMember(n: Node, i: nat)
    requires UniqueNames(n.children)
    requires i < |n.children|
    ensures Child(n, n.children[i].name) == Some(n.children[i])
  {
    var k := FindIndex(n.children, n.children[i].name);
    assert k.Some?;
    assert k.value == i;
  }

  /** `register(child)`: store `c` under its name, replacing a same-named
      child in place, and keep every other child where it was. */
  function Register(n: Node, c: Node): (r: Node)
    ensures Child(r, c.name) == Some(c)
    ensures forall m :: m != c.name ==> Child(r, m) == Child(n, m)
    ensures Names(r.children) ==
              if c.name in Names(n.children) then Names(n.children) else Names(n.children) + [c.name]
    ensures UniqueNames(n.children) ==> UniqueNames(r.children)
    ensures r == n.(children := r.children)
  {
    match FindIndex(n.children, c.name)
    case Some(i) =>
      RegisterReplaces(n, i, c);
      n.(children := n.children[i := c])
    case None =>
      RegisterAppends(n, c);
      n.(children := n.children + [c])
  }

  /** Registering a child already registered under its name changes
      nothing. */
  lemma RegisterPresent(n: Node, c: Node)
    requires Child(n, c.name) == Some(c)
    ensures Register(n, c) == n
  {
    var i := FindIndex(n.children, c.name).value;
    assert n.children[i := c] == n.children;
  }

  lemma RegisterReplaces(n: Node, i: nat, c: Node)
    requires FindIndex(n.children, c.name) == Some(i)
    ensures var r := n.(children := n.children[i := c]);
      && Child(r, c.name) == Some(c)
      && (forall m :: m != c.name ==> Child(r, m) == Child(n, m))
      && Names(r.children) == Names(n.children)
      && (UniqueNames(n.children) ==> UniqueNames(r.children))
  {
    var cs := n.children;
    var r := n.(children := cs[i := c]);
    assert Names(r.children) == Names(cs);
    FindIndexFirst(r.children, i);
    forall m | m != c.name ensures Child(r, m) == Child(n, m) {
      FindIndexReplace(cs, i, c, m);
    }
  }

  lemma RegisterAppends(n: Node, c: Node)
    requires FindIndex(n.children, c.name).None?
    ensures var r := n.(children := n.children + [c]);
      && Child(r, c.name) == Some(c)
      && (forall m :: m != c.name ==> Child(r, m) == Child(n, m))
      && Names(r.children) == Names(n.children) + [c.name]
      && (UniqueNames(n.children) ==> UniqueNames(r.children))
  {
    var cs := n.children;
    var r := n.(children := cs + [c]);
    assert Names(r.children) == Names(cs) + [c.name];
    FindIndexAppend(cs, c, c.name);
    forall m | m != c.name ensures Child(r, m) == Child(n, m) {
      FindIndexAppend(cs, c, m);
    }
    if UniqueNames(cs) {
      forall i, j | 0 <= i < j < |r.children| ensures r.children[i].name != r.children[j].name {
        if j == |cs| {
          assert Names(cs)[i] == cs[i].name;
        }
      }
    }
  }

  /** A position whose name occurs nowhere earlier is where the name is found. */
  lemma {:induction false} FindIndexFirst(cs: seq<Node>, i: nat)
    requires i < |cs|
    requires forall j :: 0 <= j < i ==> cs[j].name != cs[i].name
    ensures FindIndex(cs, cs[i].name) == Some(i)
  {
    if i > 0 {
      FindIndexFirst(cs[1..], i - 1);
    }
  }

  lemma {:induction false} FindIndexReplace(cs: seq<Node>, i: nat, c: Node, m: string)
    requires i < |cs| && cs[i].name == c.name && m != c.name
    ensures FindIndex(cs[i := c], m) == FindIndex(cs, m)
  {
    if cs[0].name != m && i > 0 {
      assert cs[i := c][1..] == cs[1..][i - 1 := c];
      FindIndexReplace(cs[1..], i - 1, c, m);
    }
  }

  lemma {:induction false} FindIndexAppend(cs: seq<Node>, c: Node, m: string)
    ensures FindIndex(cs + [c], m) ==
              if m in Names(cs) then FindIndex(cs, m)
              else if c.name == m then Some(|cs|) else None
  {
    if cs != [] && cs[0].name != m {
      assert (cs + [c])[1..] == cs[1..] + [c];
      FindIndexAppend(cs[1..], c, m);
      assert m in Names(cs) <==> m in Names(cs[1..]) by {
        if m in Names(cs) {
          var k :| 0 <= k < |cs| && Names(cs)[k] == m;
          assert Names(cs[1..])[k - 1] == m;
        }
        if m in Names(cs[1..]) {
          var k :| 0 <= k < |cs| - 1 && Names(cs[1..])[k] == m;
          assert Names(cs)[k + 1] == m;
        }
      }
    }
  }

  /** `get(name)`: the child called `name`; when there is none and the group
      has a factory, a fresh child built by the factory and registered;
      otherwise `KeyError`. Yields the updated group and the child. */
  function Get(n: Node, name: string): (r: Result<(Node, Node)>)
    ensures Child(n, name).Some? ==> r == Ok((n, Child(n, name).value))
    ensures r.Err? <==> Child(n, name).None? && (n.factory.None? || Reserved(name))
    ensures r.Err? && n.factory.None? ==> r.error == NoSuchChild(name)
    ensures r.Err? && n.factory.Some? ==> r.error == ForbiddenName(name)
    ensures r.Ok? ==> Child(r.value.0, name) == Some(r.value.1)
    ensures r.Ok? ==> r.value.0 == n.(children := r.value.0.children)
    ensures r.Ok? && Child(n, name).None? ==>
              && r.value.0.children == n.children + [r.value.1]
              && r.value.1.children == []
              && (ExpectsValue(r.value.1) ==> r.value.1.stored == None)
    ensures r.Ok? && Child(n, name).None? ==>
              n.factory.Some? && Construct(n.factory.value, name) == Ok(r.value.1)
    ensures r.Ok? ==> forall m :: m != name ==> Child(r.value.0, m) == Child(n, m)
  {
    match Child(n, name)
    case Some(c) => Ok((n, c))
    case None =>
      match n.factory
      case None => Err(NoSuchChild(name))
      case Some(f) =>
        var c :- Construct(f, name);
        assert FindIndex(n.children, c.name).None?;
        Ok((Register(n, c), c))
  }

  /** A second `get` of the same name returns the same child and changes
      nothing: the factory runs at most once per name. */
  lemma GetIdempotent(n: Node, name: string)
    requires Get(n, name).Ok?
    ensures Get(Get(n, name).value.0, name) == Get(n, name)
  {
  }

  /** `_fullname(parentName, childName)`: a parent's name and a child's name
      joined with a dot, or the child's alone when the parent's is empty. */
  function Dotted(parentName: string, childName: string): string {
    if parentName == "" then childName else parentName + "." + childName
  }

  /** A full name splits at its dots into the parent's parts and then the
      child's name; a root with the empty name adds no part. */
  lemma DottedSplit(parentName: string, childName: string)
    requires '.' !in childName
    ensures parentName == "" ==> SplitOn(Dotted(parentName, childName), '.') == [childName]
    ensures parentName != "" ==>
              SplitOn(Dotted(parentName, childName), '.') == SplitOn(parentName, '.') + [childName]
  {
    if parentName == "" {
      SplitJoin([childName], '.');
    } else {
      var parts := SplitOn(parentName, '.');
      JoinWithAppend(parts, childName, '.');
      SplitJoin(parts + [childName], '.');
    }
  }

  /** The node reached from `n` by following the child names `ps`. */
  function Lookup(n: Node, ps: seq<string>): (r: Option<Node>)
    ensures ps == [] ==> r == Some(n)
    ensures r.Some? && ps != [] ==> r.value.name == ps[|ps| - 1]
    ensures r.Some? && ps != [] ==> Child(n, ps[0]).Some?
    decreases ps
  {
    if ps == [] then Some(n)
    else
      match Child(n, ps[0])
      case None => None
      case Some(c) => Lookup(c, ps[1..])
  }

  /** Following one more name after a path is a child lookup at its end. */
  lemma {:induction false} LookupAppend(n: Node, ps: seq<string>, x: string)
    ensures Lookup(n, ps + [x]) ==
              match Lookup(n, ps)
              case None => None
              case Some(m) => Child(m, x)
    decreases ps
  {
    if ps == [] {
      assert Lookup(n, [x]) == (match Child(n, x) case None => None case Some(c) => Lookup(c, []));
    } else {
      assert (ps + [x])[0] == ps[0] && (ps + [x])[1..] == ps[1..] + [x];
      match Child(n, ps[0])
      case None =>
      case Some(c) =>
        LookupAppend(c, ps[1..], x);
    }
  }

  /** Number of nodes in the subtree rooted at `n`. */
  function Size(n: Node): nat {
    1 + SizeAll(n.children)
  }

  function SizeAll(cs: seq<Node>): nat {
    if cs == [] then 0 else Size(cs[0]) + SizeAll(cs[1..])
  }

  /** Every entry's name prefixed with `Dotted(name, _)`. */
  function Prefixed(name: string, es: seq<(string, Node)>): (r: seq<(string, Node)>)
    ensures |r| == |es|
    ensures forall i :: 0 <= i < |es| ==> r[i] == (Dotted(name, es[i].0), es[i].1)
  {
    seq(|es|, i requires 0 <= i < |es| => (Dotted(name, es[i].0), es[i].1))
  }

  /** `__iter__`: the node itself under its own name, then each child's
      entries in insertion order, named relative to this node. */
  function Iterate(n: Node): (r: seq<(string, Node)>)
    ensures |r| == Size(n)
    ensures r[0] == (n.name, n)
    decreases n
  {
    [(n.name, n)] + IterateAll(n.name, n.children)
  }

  function IterateAll(name: string, cs: seq<Node>): (r: seq<(string, Node)>)
    ensures |r| == SizeAll(cs)
    decreases cs
  {
    if cs == [] then [] else Prefixed(name, Iterate(cs[0])) + IterateAll(name, cs[1..])
  }

  /** Every name in the subtree is non-empty. */
  predicate Named(n: Node) {
    n.name != "" && forall c :: c in n.children ==> Named(c)
  }

  /** Every group in the subtree keeps its children's names distinct, as the
      ordered dictionary does. */
  predicate UniqueDeep(n: Node) {
    UniqueNames(n.children) && forall c :: c in n.children ==> UniqueDeep(c)
  }

  /** Listing two runs of siblings lists the first run, then the second. */
  lemma {:induction false} IterateAllAppend(name: string, xs: seq<Node>, ys: seq<Node>)
    ensures IterateAll(name, xs + ys) == IterateAll(name, xs) + IterateAll(name, ys)
    decreases |xs|
  {
    if xs == [] {
      assert xs + ys == ys;
    } else {
      var head := Prefixed(name, Iterate(xs[0]));
      assert (xs + ys)[0] == xs[0] && (xs + ys)[1..] == xs[1..] + ys;
      IterateAllAppend(name, xs[1..], ys);
      var x, y := IterateAll(name, xs[1..]), IterateAll(name, ys);
      assert head + (x + y) == (head + x) + y;
    }
  }

  /** The entries of child `i`'s subtree form one block, after the blocks of
      every earlier child and before those of every later one: children are
      listed in insertion order, each with its whole subtree. */
  lemma IterateAllBlocks(name: string, cs: seq<Node>, i: nat)
    requires i < |cs|
    ensures IterateAll(name, cs)
            == IterateAll(name, cs[..i]) + Prefixed(name, Iterate(cs[i])) + IterateAll(name, cs[i + 1..])
  {
    assert cs == cs[..i] + ([cs[i]] + cs[i + 1..]);
    IterateAllAppend(name, cs[..i], [cs[i]] + cs[i + 1..]);
    IterateAllAppend(name, [cs[i]], cs[i + 1..]);
    assert [cs[i]][1..] == [];
    assert IterateAll(name, [cs[i]]) == Prefixed(name, Iterate(cs[i]));
  }

  /** The name `__iter__` reports for the node at path `ps` below `n`: the
      dotted join of every name from `n` down to it. */
  function PathName(n: Node, ps: seq<string>): string {
    JoinWith([n.name] + ps, '.')
  }

  lemma {:induction false} IterateAllHas(name: string, cs: seq<Node>, i: nat, e: (string, Node))
    requires i < |cs|
    requires e in Iterate(cs[i])
    ensures (Dotted(name, e.0), e.1) in IterateAll(name, cs)
    decreases i
  {
    if i == 0 {
      var k :| 0 <= k < |Iterate(cs[0])| && Iterate(cs[0])[k] == e;
      assert Prefixed(name, Iterate(cs[0]))[k] == (Dotted(name, e.0), e.1);
    } else {
      IterateAllHas(name, cs[1..], i - 1, e);
    }
  }

  lemma {:induction false} IterateAllFrom(name: string, cs: seq<Node>, e: (string, Node))
    requires e in IterateAll(name, cs)
    ensures exists i, d :: 0 <= i < |cs| && d in Iterate(cs[i]) && e == (Dotted(name, d.0), d.1)
    decreases cs
  {
    var head := Prefixed(name, Iterate(cs[0]));
    if e in head {
      var k :| 0 <= k < |head| && head[k] == e;
      assert Iterate(cs[0])[k] in Iterate(cs[0]);
    } else {
      IterateAllFrom(name, cs[1..], e);
      var i, d :| 0 <= i < |cs[1..]| && d in Iterate(cs[1..][i]) && e == (Dotted(name, d.0), d.1);
      assert cs[1..][i] == cs[i + 1];
    }
  }

  lemma PathNameStep(n: Node, c: Node, ps: seq<string>)
    requires n.name != ""
    ensures Dotted(n.name, PathName(c, ps)) == PathName(n, [c.name] + ps)
  {
    assert ([n.name] + ([c.name] + ps))[1..] == [c.name] + ps;
  }

  /** Every node reachable from `n` is yielded by `__iter__`, under its
      dotted path. */
  lemma {:induction false} IterateCoversTree(n: Node, ps: seq<string>)
    requires Named(n)
    requires Lookup(n, ps).Some?
    ensures (PathName(n, ps), Lookup(n, ps).value) in Iterate(n)
    decreases ps
  {
    if ps == [] {
      assert Iterate(n)[0] == (PathName(n, ps), n);
    } else {
      var i := FindIndex(n.children, ps[0]).value;
      var c := n.children[i];
      assert Lookup(n, ps) == Lookup(c, ps[1..]);
      IterateCoversTree(c, ps[1..]);
      IterateAllHas(n.name, n.children, i, (PathName(c, ps[1..]), Lookup(c, ps[1..]).value));
      PathNameStep(n, c, ps[1..]);
      assert [c.name] + ps[1..] == ps;
    }
  }

  /** Every entry `__iter__` yields is a node of the tree, named by the path
      that reaches it. */
  lemma {:induction false} IterateSound(n: Node, e: (string, Node))
    requires Named(n) && UniqueDeep(n)
    requires e in Iterate(n)
    ensures exists ps :: Lookup(n, ps) == Some(e.1) && e.0 == PathName(n, ps)
    decreases n
  {
    if e == (n.name, n) {
      assert Lookup(n, []) == Some(e.1) && e.0 == PathName(n, []);
    } else {
      assert e in IterateAll(n.name, n.children);
      IterateAllFrom(n.name, n.children, e);
      var i, d :| 0 <= i < |n.children| && d in Iterate(n.children[i]) && e == (Dotted(n.name, d.0), d.1);
      var c := n.children[i];
      IterateSound(c, d);
      var qs :| Lookup(c, qs) == Some(d.1) && d.0 == PathName(c, qs);
      ChildPathExtends(n, i, qs);
      assert Lookup(n, [c.name] + qs) == Some(e.1) && e.0 == PathName(n, [c.name] + qs);
    }
  }

  /** A path below child `i` extends to a path below its parent. */
  lemma ChildPathExtends(n: Node, i: nat, qs: seq<string>)
    requires n.name != "" && UniqueNames(n.children) && i < |n.children|
    ensures Lookup(n, [n.children[i].name] + qs) == Lookup(n.children[i], qs)
    ensures PathName(n, [n.children[i].name] + qs) == Dotted(n.name, PathName(n.children[i], qs))
  {
    var c := n.children[i];
    ChildOfMember(n, i);
    var ps := [c.name] + qs;
    assert ps[0] == c.name && ps[1..] == qs;
    PathNameStep(n, c, qs);
  }

  /** The flattening of a group with two leaves: the group under its own
      name, then each leaf under its dotted name, in registration order. */
  lemma IterateExample()
    ensures var i := Value("int", None, None, [], IntKind, None, NoDefault);
      var b := Value("bool", None, None, [], BoolKind, None, NoDefault);
      var simple := Group("simple", None, None, [i, b]);
      Iterate(simple) == [("simple", simple), ("simple.int", i), ("simple.bool", b)]
  {
    var i := Value("int", None, None, [], IntKind, None, NoDefault);
    var b := Value("bool", None, None, [], BoolKind, None, NoDefault);
    assert Iterate(i) == [("int", i)];
    assert Iterate(b) == [("bool", b)];
    assert [i, b][1..] == [b];
    assert Dotted("simple", "int") == "simple.int";
    assert Dotted("simple", "bool") == "simple.bool";
    assert Prefixed("simple", [("int", i)]) == [("simple.int", i)];
    assert Prefixed("simple", [("bool", b)]) == [("simple.bool", b)];
    assert IterateAll("simple", [b]) == [("simple.bool", b)];
    assert IterateAll("simple", [i, b]) == [("simple.int", i), ("simple.bool", b)];
  }
}

=== FILE: values.dfy ===
/** Leaf semantics: the effective value of a `Value` (its stored value,
    otherwise its default), defaults that delegate to the parent, and the
    `isSet` / `isDefault` / `reset` / `set` / `setFromString` operations.

    A parent is represented by the result of calling it, which the walk
    from the root computes before it visits the children. */
module Values {
  import opened Base
  import opened Text
  import opened Scalars
  import opened Tree

  /** What a node can ask of its parent: nothing for a root (`_parent` is
      `None`), otherwise the result of calling the parent. */
  datatype Context = Orphan | Parent(call: Result<Option<Scalar>>)

  /** The `default` property of a leaf. */
  function DefaultValue(n: Node, ctx: Context): (r: Result<Option<Scalar>>)
    requires n.Value?
    ensures n.default.NoDefault? ==> r == Ok(None)
    ensures n.default.Literal? ==> r == Ok(Some(n.default.v))
    ensures n.default.FromParent? && ctx.Parent? ==> r == ctx.call
    ensures r.Err? ==> n.default.FromParent? && (ctx.Orphan? ==> r.error == NoParent)
  {
    match n.default
    case NoDefault => Ok(None)
    case Literal(v) => Ok(Some(v))
    case FromParent =>
      match ctx
      case Orphan => Err(NoParent)
      case Parent(call) => call
  }

  /** `__call__`: a leaf's stored value, otherwise its default; a group
      raises `GroupExpectsNoValue` carrying its full name `path`. */
  function Call(n: Node, path: string, ctx: Context): (r: Result<Option<Scalar>>)
    ensures n.Group? ==> r == Err(GroupExpectsNoValue(None, path))
    ensures n.Value? && n.stored.Some? ==> r == Ok(n.stored)
    ensures n.Value? && n.stored.None? ==> r == DefaultValue(n, ctx)
    ensures r.Err? ==> n.Group? || (n.stored.None? && n.default.FromParent?)
  {
    match n
    case Group(_, _, _, _) => Err(GroupExpectsNoValue(None, path))
    case Value(_, _, _, _, _, stored, _) =>
      if stored.Some? then Ok(stored) else DefaultValue(n, ctx)
  }

  /** What the children of `n` see as their parent. */
  function ChildContext(n: Node, path: string, ctx: Context): Context {
    Parent(Call(n, path, ctx))
  }

  /** `isSet()`: something is stored, or the default resolves to a value. */
  function IsSet(n: Node, ctx: Context): (r: Result<bool>)
    requires n.Value?
    ensures forall path :: r == (match Call(n, path, ctx)
                                 case Ok(v) => Ok(v.Some?)
                                 case Err(e) => Err(e))
  {
    if n.stored.Some? then Ok(true)
    else
      var d :- DefaultValue(n, ctx);
      Ok(d.Some?)
  }

  /** `isDefault()`: nothing is stored. */
  predicate IsDefault(n: Node)
    requires n.Value?
  {
    n.stored.None?
  }

  /** A leaf whose `isDefault()` holds yields its default; one whose
      `isDefault()` fails yields its stored value and is set. */
  lemma IsDefaultMeansDefault(n: Node, path: string, ctx: Context)
    requires n.Value?
    ensures IsDefault(n) ==> Call(n, path, ctx) == DefaultValue(n, ctx)
    ensures !IsDefault(n) ==> Call(n, path, ctx) == Ok(n.stored) && IsSet(n, ctx) == Ok(true)
  {
  }

  /** `reset()`: forget the stored value. */
  function Reset(n: Node): (r: Node)
    requires n.Value?
    ensures r.Value? && IsDefault(r)
    ensures r.default == n.default && r.kind == n.kind
    ensures r.name == n.name && r.children == n.children
    ensures r.comment == n.comment && r.factory == n.factory
    ensures forall path, ctx :: Call(r, path, ctx) == DefaultValue(n, ctx)
  {
    n.(stored := None)
  }

  /** `set(v)`: store `v` as it is, with no conversion. */
  function Set(n: Node, v: Scalar): (r: Node)
    requires n.Value?
    ensures r.Value? && !IsDefault(r)
    ensures forall path, ctx :: Call(r, path, ctx) == Ok(Some(v))
    ensures forall ctx :: IsSet(r, ctx) == Ok(true)
    ensures Reset(r) == Reset(n)
  {
    n.(stored := Some(v))
  }

  /** `setFromString(s)`: convert with the leaf's kind, then store; a
      conversion failure leaves the leaf as it was. */
  function SetFromString(n: Node, s: string): (r: Result<Node>)
    requires n.Value?
    ensures r.Err? <==> FromString(n.kind, s).Err?
    ensures r.Err? ==> r.error == ConversionError(s)
    ensures r.Ok? ==> r.value.Value? && r.value.stored.Some? && KindOf(r.value.stored.value) == n.kind
    ensures r.Ok? ==> Reset(r.value) == Reset(n)
    ensures r.Ok? ==> r.value.stored == Some(FromString(n.kind, s).value)
  {
    var v :- FromString(n.kind, s);
    Ok(Set(n, v))
  }

  /** Storing the text of a value of the leaf's own kind stores that value. */
  lemma SetFromShow(n: Node, v: Scalar)
    requires n.Value? && KindOf(v) == n.kind
    ensures SetFromString(n, Show(v)) == Ok(Set(n, v))
  {
    ShowRoundTrip(v);
  }

  /** A leaf with a default keeps being set across `set` and `reset`, and
      `reset` makes it default again without touching the default: the
      predicates as the test of value predicates exercises them. */
  lemma PredicatesAcrossReset(n: Node, ctx: Context, v: Scalar)
    requires n.Value? && n.default.Literal?
    ensures IsSet(n, ctx) == Ok(true)
    ensures IsDefault(Reset(Set(n, v))) && Reset(Set(n, v)).default == n.default
    ensures IsSet(Reset(Set(n, v)), ctx) == Ok(true)
  {
    assert IsSet(n, ctx) == (match Call(n, "", ctx) case Ok(w) => Ok(w.Some?) case Err(e) => Err(e));
    var r := Reset(Set(n, v));
    assert IsSet(r, ctx) == (match Call(r, "", ctx) case Ok(w) => Ok(w.Some?) case Err(e) => Err(e));
  }

  /** The effective value of the node at path `ps` below `n`, where `n` has
      full name `path` and sits in `ctx`. */
  function CallAt(n: Node, path: string, ctx: Context, ps: seq<string>): Result<Option<Scalar>>
    decreases ps
  {
    if ps == [] then Call(n, path, ctx)
    else
      match Child(n, ps[0])
      case None => Err(NoSuchChild(ps[0]))
      case Some(c) => CallAt(c, Dotted(path, c.name), ChildContext(n, path, ctx), ps[1..])
  }

  /** `set(v)` on the leaf at path `ps` below `n`; nothing changes when
      there is no leaf there. */
  function SetAt(n: Node, ps: seq<string>, v: Scalar): (r: Node)
    ensures r.name == n.name && Names(r.children) == Names(n.children)
    ensures ps != [] ==> r == n.(children := r.children)
    decreases ps
  {
    if ps == [] then
      if n.Value? then Set(n, v) else n
    else
      match FindIndex(n.children, ps[0])
      case None => n
      case Some(i) =>
        var r := n.(children := n.children[i := SetAt(n.children[i], ps[1..], v)]);
        assert Names(r.children) == Names(n.children);
        r
  }

  /** Setting a leaf to the value it already stores changes nothing. */
  lemma {:induction false} SetAtStored(n: Node, ps: seq<string>, v: Scalar)
    requires Lookup(n, ps).Some? && Lookup(n, ps).value.Value?
    requires Lookup(n, ps).value.stored == Some(v)
    ensures SetAt(n, ps, v) == n
    decreases ps
  {
    if ps != [] {
      var i := FindIndex(n.children, ps[0]).value;
      SetAtStored(n.children[i], ps[1..], v);
      assert n.children[i := n.children[i]] == n.children;
    }
  }

  /** Below the root, setting changes the child on the path and no other. */
  lemma ChildOfSetAt(n: Node, ps: seq<string>, v: Scalar, a: string)
    requires ps != []
    ensures a != ps[0] ==> Child(SetAt(n, ps, v), a) == Child(n, a)
    ensures a == ps[0] && Child(n, a).Some? ==>
              Child(SetAt(n, ps, v), a) == Some(SetAt(Child(n, a).value, ps[1..], v))
  {
    match FindIndex(n.children, ps[0])
    case None =>
    case Some(i) =>
      var c' := SetAt(n.children[i], ps[1..], v);
      if a != ps[0] {
        FindIndexReplace(n.children, i, c', a);
      } else {
        FindIndexFirst(n.children[i := c'], i);
      }
  }

  predicate IsPrefix(qs: seq<string>, ps: seq<string>) {
    |qs| <= |ps| && ps[..|qs|] == qs
  }

  /** Setting the leaf at `qs` leaves the effective value of every node
      that is not at or below `qs` unchanged. */
  lemma {:induction false} SetLeavesOthers(n: Node, path: string, ctx: Context,
                                           qs: seq<string>, ps: seq<string>, v: Scalar)
    requires !IsPrefix(qs, ps)
    ensures CallAt(SetAt(n, qs, v), path, ctx, ps) == CallAt(n, path, ctx, ps)
    decreases ps
  {
    var n' := SetAt(n, qs, v);
    assert qs != [];
    assert Call(n', path, ctx) == Call(n, path, ctx);
    if ps != [] {
      var cctx := ChildContext(n, path, ctx);
      assert ChildContext(n', path, ctx) == cctx;
      ChildOfSetAt(n, qs, v, ps[0]);
      match Child(n, ps[0])
      case None =>
      case Some(c) =>
        if ps[0] == qs[0] {
          var c' := SetAt(c, qs[1..], v);
          assert Child(n', ps[0]) == Some(c') && c'.name == c.name;
          assert !IsPrefix(qs[1..], ps[1..]);
          SetLeavesOthers(c, Dotted(path, c.name), cctx, qs[1..], ps[1..], v);
        }
    }
  }

  /** Setting a child never changes its parent's effective value. */
  lemma SetChildKeepsParent(n: Node, path: string, ctx: Context, ps: seq<string>, c: string, v: Scalar)
    ensures CallAt(SetAt(n, ps + [c], v), path, ctx, ps) == CallAt(n, path, ctx, ps)
  {
    SetLeavesOthers(n, path, ctx, ps + [c], ps, v);
  }

  /** After setting the leaf at `ps`, its effective value is the value set. */
  lemma {:induction false} SetThenCall(n: Node, path: string, ctx: Context, ps: seq<string>, v: Scalar)
    requires Lookup(n, ps).Some? && Lookup(n, ps).value.Value?
    ensures CallAt(SetAt(n, ps, v), path, ctx, ps) == Ok(Some(v))
    decreases ps
  {
    if ps != [] {
      ChildOfSetAt(n, ps, v, ps[0]);
      var c := Child(n, ps[0]).value;
      SetThenCall(c, Dotted(path, c.name), ChildContext(SetAt(n, ps, v), path, ctx), ps[1..], v);
    }
  }

  /** Each node along `qs` below `n` is an unset leaf whose default is the
      `parent` sentinel. */
  predicate Delegates(n: Node, qs: seq<string>)
    decreases qs
  {
    qs == [] ||
    match Child(n, qs[0])
    case None => false
    case Some(c) => c.Value? && c.stored.None? && c.default.FromParent? && Delegates(c, qs[1..])
  }

  /** Parent delegation is transitive: at the end of a chain of unset
      `parent`-defaulted leaves the effective value is that of the node the
      chain hangs from (a group's error included). */
  lemma {:induction false} DelegationChain(n: Node, path: string, ctx: Context, qs: seq<string>)
    requires Delegates(n, qs)
    ensures CallAt(n, path, ctx, qs) == Call(n, path, ctx)
    decreases qs
  {
    if qs != [] {
      var c := Child(n, qs[0]).value;
      var cctx := ChildContext(n, path, ctx);
      DelegationChain(c, Dotted(path, c.name), cctx, qs[1..]);
      assert CallAt(n, path, ctx, qs) == CallAt(c, Dotted(path, c.name), cctx, qs[1..]);
      assert Call(c, Dotted(path, c.name), cctx) == DefaultValue(c, cctx);
    }
  }

  /** The parent-supplies-default scenario: `config.x` is an `Int` with
      default 1 and `config.x.y` an `Int` whose default is `parent`. */
  lemma ParentDefaultExample()
    ensures var y := Value("y", None, None, [], IntKind, None, FromParent);
      var x := Value("x", None, None, [y], IntKind, None, Literal(IntV(1)));
      var config := Group("config", None, None, [x]);
      && CallAt(config, "config", Orphan, ["x"]) == Ok(Some(IntV(1)))
      && CallAt(config, "config", Orphan, ["x", "y"]) == Ok(Some(IntV(1)))
      && CallAt(SetAt(config, ["x"], IntV(2)), "config", Orphan, ["x", "y"]) == Ok(Some(IntV(2)))
      && CallAt(SetAt(SetAt(config, ["x"], IntV(2)), ["x", "y"], IntV(3)), "config", Orphan, ["x"])
           == Ok(Some(IntV(2)))
      && CallAt(SetAt(SetAt(config, ["x"], IntV(2)), ["x", "y"], IntV(3)), "config", Orphan, ["x", "y"])
           == Ok(Some(IntV(3)))
  {
    var y := Value("y", None, None, [], IntKind, None, FromParent);
    var x := Value("x", None, None, [y], IntKind, None, Literal(IntV(1)));
    var config := Group("config", None, None, [x]);
    assert Child(config, "x") == Some(x);
    assert Child(x, "y") == Some(y);
    assert ["x", "y"][1..] == ["y"];
    DelegationChain(x, "config.x", Parent(Call(config, "config", Orphan)), ["y"]);
    var c2 := SetAt(config, ["x"], IntV(2));
    SetThenCall(config, "config", Orphan, ["x"], IntV(2));
    assert Child(c2, "x").Some?;
    var x2 := Child(c2, "x").value;
    assert Child(x2, "y") == Some(y);
    DelegationChain(x2, "config.x", Parent(Call(c2, "config", Orphan)), ["y"]);
    SetChildKeepsParent(c2, "config", Orphan, ["x"], "y", IntV(3));
    assert ["x"] + ["y"] == ["x", "y"];
    assert Lookup(c2, ["x", "y"]).Some?;
    SetThenCall(c2, "config", Orphan, ["x", "y"], IntV(3));
  }

  /** `Group.__call__` as written: it passes one argument to the
      two-parameter constructor `GroupExpectsNoValue(lineno, name)`, so
      Python raises a `TypeError` for the arity instead. */
  function GroupCallAsWritten(n: Node, path: string): (r: Result<Option<Scalar>>)
    requires n.Group?
    ensures r.Err? && !r.error.GroupExpectsNoValue?
  {
    Err(WrongArity(2, 1))
  }

  /** Calling a group, and so resolving a `parent` default below a group,
      is meant to fail with `GroupExpectsNoValue` naming the group's full
      path; the code as written loses both the exception class and the path. */
  lemma GroupCallFinding(n: Node, path: string, ctx: Context)
    requires n.Group?
    ensures Call(n, path, ctx) == Err(GroupExpectsNoValue(None, path))
    ensures GroupCallAsWritten(n, path) != Call(n, path, ctx)
    ensures forall c :: c in n.children && c.Value? && c.stored.None? && c.default.FromParent? ==>
              Call(c, Dotted(path, c.name), ChildContext(n, path, ctx)) == Err(GroupExpectsNoValue(None, path))
  {
  }
}

=== FILE: wrap.dfy ===
/** Comment wrapping for the written file: `wrap(comment)` collapses the
    comment's whitespace and fills lines greedily, as `textwrap.wrap` does
    with its default width of 70. */
module Wrap {
  import opened Text

  const Width: nat := 70

  /** Position of the first whitespace character, or `|s|`. */
  function FirstSpace(s: string): (i: nat)
    ensures i <= |s|
    ensures forall j :: 0 <= j < i ==> !IsSpace(s[j])
    ensures i < |s| ==> IsSpace(s[i])
  {
    if s == [] || IsSpace(s[0]) then 0 else 1 + FirstSpace(s[1..])
  }

  /** A word: non-empty and free of whitespace. */
  predicate IsWord(w: string) {
    w != [] && forall j :: 0 <= j < |w| ==> !IsSpace(w[j])
  }

  /** `s.split()`: the maximal runs of non-whitespace characters. */
  function Words(s: string): (ws: seq<string>)
    ensures forall k :: 0 <= k < |ws| ==> IsWord(ws[k])
    decreases |s|
  {
    var t := LStrip(s);
    if t == [] then []
    else
      var i := FirstSpace(t);
      FirstWord(t);
      var rest := Words(t[i..]);
      ConsWords(t[..i], rest);
      [t[..i]] + rest
  }

  lemma ConsWords(w: string, rest: seq<string>)
    requires IsWord(w) && forall k :: 0 <= k < |rest| ==> IsWord(rest[k])
    ensures forall k :: 0 <= k < |[w] + rest| ==> IsWord(([w] + rest)[k])
  {
    var ws := [w] + rest;
    forall k | 0 <= k < |ws| ensures IsWord(ws[k]) {
      if k > 0 {
        assert ws[k] == rest[k - 1];
      }
    }
  }

  /** Text starting with a non-space character starts with a word. */
  lemma FirstWord(t: string)
    requires t != [] && !IsSpace(t[0])
    ensures FirstSpace(t) >= 1 && IsWord(t[..FirstSpace(t)])
  {
  }

  /** The first whitespace is where every earlier character is no space
      and the character there is one. */
  lemma FirstSpaceAt(s: string, i: nat)
    requires i <= |s|
    requires forall j :: 0 <= j < i ==> !IsSpace(s[j])
    requires i < |s| ==> IsSpace(s[i])
    ensures FirstSpace(s) == i
  {
  }

  /** A text has no words exactly when it is all whitespace. */
  lemma WordsNone(s: string)
    ensures Words(s) == [] <==> AllSpace(s)
  {
    if AllSpace(s) {
      LStripSpaces(s, []);
      assert s + [] == s;
    } else {
      var k :| 0 <= k < |s| && !IsSpace(s[k]);
      assert LStrip(s) != [];
    }
  }

  /** Whitespace in front of the text adds no word. */
  lemma WordsLeadingSpace(w: string, s: string)
    requires AllSpace(w)
    ensures Words(w + s) == Words(s)
  {
    LStripSpaces(w, s);
  }

  /** A word followed by whitespace is the first word, and the words of
      what follows come after it; a lone word is the only word. With
      `WordsLeadingSpace` and `ws == [] <==> AllSpace(s)` this fixes
      `Words` on every text: the maximal non-space runs, in order. */
  lemma WordsCons(w: string, sp: string, rest: string)
    requires IsWord(w) && AllSpace(sp)
    requires sp != [] || rest == []
    ensures Words(w + sp + rest) == [w] + Words(rest)
  {
    var s := w + sp + rest;
    FirstWordOf(w, sp, rest);
    assert Words(s) == [w] + Words(sp + rest);
    WordsLeadingSpace(sp, rest);
  }

  /** Where the first word of `w + sp + rest` ends. */
  lemma FirstWordOf(w: string, sp: string, rest: string)
    requires IsWord(w) && AllSpace(sp)
    requires sp != [] || rest == []
    ensures var s := w + sp + rest;
      LStrip(s) == s && FirstSpace(s) == |w| && s[..|w|] == w && s[|w|..] == sp + rest
  {
    var s := w + sp + rest;
    assert s[0] == w[0];
    assert LStrip(s) == s;
    assert forall j :: 0 <= j < |w| ==> s[j] == w[j];
    if |w| < |s| {
      assert s[|w|] == sp[0];
    }
    FirstSpaceAt(s, |w|);
    assert s[..|w|] == w;
    assert s[|w|..] == sp + rest;
  }

  /** Number of words, starting at `k`, that fit on the line already
      holding `ws[..k]` of length `len`. */
  function TakeFrom(ws: seq<string>, k: nat, len: nat, width: nat): (r: nat)
    requires 1 <= k <= |ws|
    requires len == |JoinWith(ws[..k], ' ')|
    ensures k <= r <= |ws|
    ensures len <= width ==> |JoinWith(ws[..r], ' ')| <= width
    decreases |ws| - k
  {
    if k < |ws| && len + 1 + |ws[k]| <= width then
      assert ws[..k + 1] == ws[..k] + [ws[k]];
      JoinWithAppend(ws[..k], ws[k], ' ');
      TakeFrom(ws, k + 1, len + 1 + |ws[k]|, width)
    else
      k
  }

  /** A slice of a suffix is a slice of the whole. */
  lemma SliceOfSuffix(ws: seq<string>, n: nat, i: nat, j: nat)
    requires n <= |ws| && i <= j <= |ws| - n
    ensures ws[n..][i..j] == ws[n + i..n + j]
  {
  }

  /** Greedy filling: each line takes as many of the remaining words as fit
      within `width`, and always at least one. */
  function Fill(ws: seq<string>, width: nat): (lines: seq<string>)
    ensures forall k :: 0 <= k < |lines| ==> exists i, j :: 0 <= i < j <= |ws| && lines[k] == JoinWith(ws[i..j], ' ')
    ensures (forall k :: 0 <= k < |ws| ==> |ws[k]| <= width) ==>
              forall k :: 0 <= k < |lines| ==> |lines[k]| <= width
    ensures lines == [] <==> ws == []
    decreases |ws|
  {
    if ws == [] then []
    else
      assert ws[..1] == [ws[0]];
      var n := TakeFrom(ws, 1, |ws[0]|, width);
      var rest := Fill(ws[n..], width);
      assert forall k :: 0 <= k < |rest| ==> exists i, j :: 0 <= i < j <= |ws| && rest[k] == JoinWith(ws[i..j], ' ') by {
        forall k | 0 <= k < |rest| ensures exists i, j :: 0 <= i < j <= |ws| && rest[k] == JoinWith(ws[i..j], ' ') {
          var i, j :| 0 <= i < j <= |ws[n..]| && rest[k] == JoinWith(ws[n..][i..j], ' ');
          SliceOfSuffix(ws, n, i, j);
          assert rest[k] == JoinWith(ws[n + i..n + j], ' ');
        }
      }
      assert ws[0..n] == ws[..n];
      [JoinWith(ws[..n], ' ')] + rest
  }

  /** `wrap(comment)`. */
  function WrapComment(comment: string): seq<string> {
    Fill(Words(comment), Width)
  }

  /** Filling loses no word and adds none: the lines joined by spaces are
      the words joined by spaces. */
  lemma {:induction false} FillCovers(ws: seq<string>, width: nat)
    requires ws != []
    ensures Fill(ws, width) != []
    ensures JoinWith(Fill(ws, width), ' ') == JoinWith(ws, ' ')
    decreases |ws|
  {
    assert ws[..1] == [ws[0]];
    var n := TakeFrom(ws, 1, |ws[0]|, width);
    var rest := Fill(ws[n..], width);
    var lines := [JoinWith(ws[..n], ' ')] + rest;
    assert Fill(ws, width) == lines;
    if n < |ws| {
      FillCovers(ws[n..], width);
      assert lines[1..] == rest;
      JoinWithSplit(ws, n, ' ');
    } else {
      assert ws[..n] == ws;
    }
  }

  /** `wrap(comment)` is empty exactly for an all-whitespace comment, and
      its lines joined by spaces are `' '.join(comment.split())`. */
  lemma WrapCommentCovers(comment: string)
    ensures WrapComment(comment) == [] <==> AllSpace(comment)
    ensures WrapComment(comment) != [] ==>
              JoinWith(WrapComment(comment), ' ') == JoinWith(Words(comment), ' ')
  {
    WordsNone(comment);
    if Words(comment) != [] {
      FillCovers(Words(comment), Width);
    }
  }

  /** A run of words joined by spaces holds no newline. */
  lemma JoinedWordsSingleLine(ws: seq<string>)
    requires |ws| >= 1
    requires forall k :: 0 <= k < |ws| ==> IsWord(ws[k])
    ensures '\n' !in JoinWith(ws, ' ')
  {
    if '\n' in JoinWith(ws, ' ') {
      JoinWithChars(ws, ' ', '\n');
    }
  }

  /** Lines filled from words never hold a newline. */
  lemma FilledSingleLines(ws: seq<string>, width: nat)
    requires forall k :: 0 <= k < |ws| ==> IsWord(ws[k])
    ensures forall k :: 0 <= k < |Fill(ws, width)| ==> '\n' !in Fill(ws, width)[k]
  {
    var lines := Fill(ws, width);
    forall k | 0 <= k < |lines| ensures '\n' !in lines[k] {
      var i, j :| 0 <= i < j <= |ws| && lines[k] == JoinWith(ws[i..j], ' ');
      JoinedWordsSingleLine(ws[i..j]);
    }
  }

  /** Wrapped comment lines never hold a newline, and each fits the width
      when no single word is longer than the width. */
  lemma WrapCommentLines(comment: string)
    ensures forall k :: 0 <= k < |WrapComment(comment)| ==> '\n' !in WrapComment(comment)[k]
    ensures (forall k :: 0 <= k < |Words(comment)| ==> |Words(comment)[k]| <= Width) ==>
              forall k :: 0 <= k < |WrapComment(comment)| ==> |WrapComment(comment)[k]| <= Width
  {
    FilledSingleLines(Words(comment), Width);
  }
}
